=== FILE: README.md ===
# ba-csv-mapper: the mapping engine and its views, in Dafny

ba-csv-mapper loads a source CSV file and a target CSV file and lets the user say
which source rows correspond to which target rows. The centre of the application
is a list of *mapped rows* (`MappedRow`). Each entry holds:

- a source row, a target row, or both;
- an id: `source-<s>`, `target-<t>` or `mapping-<s>-<t>`;
- optional remarks;
- a `mappingId`.

This project models that list and everything that changes or reads it:

- **The engine in `src/App.tsx`.**
  - Initialize is the full outer join with no pairing.
  - Map pairs one anchor row with several rows of the other side, from either side.
  - Unmap, UpdateRemarks, and the two "is this row mapped" queries.
- **The views in `src/components/MappedPanel.tsx`.**
  - The flat rows written to the CSV download.
  - The rows shown in the grid.
  - The key the grid's unmap and remarks callbacks pass back: the mapping id, or else the row id.
- **The mapping dialog in `src/components/MappingModal.tsx`.**
  - Which side's rows it offers.
  - The case-insensitive search over all field values.
  - The confirm button, which is disabled while nothing is selected, and the reset on confirm and on close.

Every operation is a pure function over immutable data.

- Rows are `Row(id, cells)`.
- Entries are `Entry(id, source, target, remarks, mappingId)`.
- An entry id is the datatype `SourceOnlyId | TargetOnlyId | PairId`.

`RowIds.IdTextInjective` shows that comparing these structured ids is the same as comparing the application's id strings. It holds because the loader numbers rows `row-0`, `row-1`, … (`src/utils/csvParser.ts`), and with such ids the text `mapping-<s>-<t>` splits in only one way.

Modules:

- **Strings**: decimal digits of a number.
- **Types**: values, rows and `find` on them, the store, entries.
- **RowIds**: the loader's id scheme.
- **EntryLists**: `find`, `filter` and counting over entry lists.
- **Engine**: the four operations and the query.
- **EngineLaws**: each operation stated against an independent description.
- **Invariant**: what the engine keeps.
- **EngineScenarios**: Map followed by Unmap, and the places where the engine keeps less than a partition.
- **Projector**: export, display and addressing.
- **Selector**: the search.
- **Modal**: the dialog.

What the code keeps is weaker than "each row in exactly one entry", and the model follows the code:

- **Map never de-duplicates.** Mapping the same pair again appends a second entry with the same id (`EngineScenarios.MapAddsOnePairEntry`, `EngineScenarios.MapTwiceDuplicatesPair`).
- **Unmap only looks for a solitary entry.** It restores a row's solitary entry whenever none is present, even if another pair still holds the row. A row can then sit in a pair and in a solitary entry at the same time (`EngineScenarios.UnmapKeepsSolitaryBesidePair`).
- **The export puts an `id` column first.** The remaining columns are every `source_<col>`, then every `target_<col>`, then `remarks`.

The invariant that does hold (`Invariant.Inv`) has four parts:

- the row ids of each side are distinct;
- every entry is well formed: its `mappingId` equals its id, the id names the rows it holds, and those rows come from the store;
- no solitary id occurs twice;
- every stored row is held by at least one entry.

Initialize establishes the invariant. Unmap and UpdateRemarks keep it. Map keeps it when at least one selected id names a row. The dialog guarantees that: its confirm button needs a non-empty selection, and the grid selects only offered rows (`Modal.ConfirmKeepsInv`). Without that condition, a Map whose selection names no row still drops the anchor's solitary entry. When no other entry holds the anchor row, that row is then in no entry; a pair that already holds it keeps it referenced. `EngineScenarios.MapWithNothingResolvedOrphansAnchor` shows this on a one-row store.

## Model

| member | source | states |
|---|---|---|
| Engine.Initialize | src/App.tsx:37-61 | one entry per row: the source-only entries in source order, then the target-only entries in target order, each with `mappingId` equal to its id and no remarks |
| Engine.SolitaryAll | src/App.tsx:41-48 | the `forEach` over one side yields exactly one solitary entry per row, in row order |
| EngineLaws.InitializeForgets | src/App.tsx:37-68 | re-running Initialize leaves no pair and no remark: no row counts as mapped afterwards |
| Invariant.InitializeEstablishesInv | src/App.tsx:37-61 | on a store with distinct row ids per side, Initialize gives well-formed entries, unique solitary ids, and every row held by an entry |
| Engine.PairOf | src/App.tsx:129-134 | the new pair holds the anchor on its own side and the counterpart on the other, whichever side the anchor is on |
| Engine.ResolvedIdsMembers | src/App.tsx:122-127 | the solitary ids a Map filters out are exactly those of the selected ids that name a row |
| Engine.NewPairsMembers | src/App.tsx:122-136 | each selected id that names a row of the other side gets a pair of the anchor with that row; there are never more pairs than selected ids, and there are none exactly when no selected id names a row |
| Engine.NewPairsOnlySelected | src/App.tsx:122-136 | every appended pair is the anchor with the row of some selected id that names a row; no unselected row is ever paired |
| Engine.NewPairsExact | src/App.tsx:122-136 | pair i is the anchor with the row of the i-th selected id that names a row, so there are exactly as many pairs as resolving selected ids, repeats included, in selection order |
| EngineLaws.AttachSpec | src/App.tsx:122-136 | the loop over the selected ids equals one filter by all resolved solitary ids followed by all new pairs in selection order |
| EngineLaws.MapSpec | src/App.tsx:108-168 | Map is the identity for a missing, empty or unknown anchor; otherwise it is "drop the anchor's and the resolved counterparts' solitary entries, then append the pairs" |
| EngineLaws.MapFrame | src/App.tsx:112-164 | entries a Map does not remove keep their contents and relative order, and only the new pairs follow them |
| EngineLaws.MapEffects | src/App.tsx:114-161 | after a Map, neither the anchor nor any resolved counterpart has a solitary entry, and every resolved counterpart is paired with the anchor; the anchor's solitary entry goes even when nothing resolves |
| EngineLaws.MapSourceToOne | src/App.tsx:114-161 | mapping a source row to one target row removes exactly their two solitary ids and appends the one pair of them |
| EngineLaws.MapTargetToOne | src/App.tsx:114-161 | mapping a target row to one source row removes the same two solitary ids and appends the same pair, source row first |
| EngineLaws.MapDirectionAgnostic | src/App.tsx:114-161 | mapping source `s` to target `t` and mapping target `t` to source `s` give the same list: the pair id always names the source row first |
| EngineScenarios.MapAddsOnePairEntry | src/App.tsx:122-134 | each Map of a pair adds one more entry with that pair's id, whether or not one exists: no de-duplication |
| EngineScenarios.MapTwiceDuplicatesPair | src/App.tsx:114-161 | mapping a pair from the source side and again from the target side leaves two entries with the same id |
| EngineScenarios.MapMarksRowsMapped | src/App.tsx:220-230 | after a Map, every resolved counterpart counts as mapped, and so does the anchor once any counterpart resolved |
| Invariant.MapPreservesInv | src/App.tsx:108-168 | a Map in which some selected id names a row keeps the invariant |
| EngineScenarios.MapWithNothingResolvedOrphansAnchor | src/App.tsx:116-127 | on a one-row store where only its solitary entry holds the anchor row, a Map whose anchor resolves but whose selection names no row leaves that row in no entry |
| EngineLaws.RestoreSpec | src/App.tsx:177-203 | a restore changes nothing when the removed entry has no row on that side or an entry with the row's solitary id is present, and otherwise appends exactly that row's solitary entry; either way the id is then present |
| EngineLaws.RestoreBoth | src/App.tsx:177-203 | the two restores append to the filtered list exactly the solitary entries of the removed entry's rows whose ids the filtered list lacks, the source row's first, so each of its rows then has its solitary id present |
| EngineLaws.UnmapSpec | src/App.tsx:170-207 | an unknown key changes nothing; otherwise every entry carrying the key goes, every other entry stays in order, and after them come exactly the solitary entries of the first such entry's rows whose ids are absent from what remains, source row first |
| Invariant.RestoreKeepsUnique | src/App.tsx:180-201 | restoring only when the solitary id is absent never duplicates a solitary id |
| Invariant.UnmapSolitary | src/App.tsx:170-188 | unmapping a solitary entry's id drops that entry and appends a fresh solitary entry of the same stored row, on either side, so only its remarks are lost |
| Invariant.UnmapPreservesInv | src/App.tsx:170-207 | Unmap keeps the invariant: every row the dropped entries held is held again afterwards |
| EngineScenarios.MapThenUnmapRestores | src/App.tsx:108-207 | mapping a source row to a target row whose solitary entries carry no remarks, and unmapping the pair, gives back the same entries as a multiset, the two solitary entries moved to the end; a remark on either solitary entry would be lost, since the restored entries are fresh |
| EngineScenarios.UnmapKeepsSolitaryBesidePair | src/App.tsx:172-203 | with two sources paired to one target, unmapping one pair restores the target's solitary entry although the other pair still holds the target |
| EngineScenarios.TwoSourcesShareTarget | src/App.tsx:114-136 | two sources mapped in turn to one target end as two pairs and no solitary entry |
| EngineScenarios.OnePairLifeCycle | src/App.tsx:37-217 | Initialize, Map, UpdateRemarks and Unmap of one pair end with the entries Initialize produced, the remark gone |
| Engine.UpdateRemarks | src/App.tsx:209-217 | length, order, ids, rows and mapping ids are unchanged; exactly the entries carrying the key get the new remarks |
| EngineLaws.UpdateRemarksUnknownKey | src/App.tsx:209-217 | a key no entry carries leaves the list unchanged |
| EngineLaws.UpdateRemarksLastWriteWins | src/App.tsx:209-217 | two edits of one key equal the last edit alone |
| Invariant.UpdateRemarksPreservesInv | src/App.tsx:209-217 | editing remarks keeps the invariant |
| Engine.IsRowMapped | src/App.tsx:220-230 | the scan answers true exactly when some entry holds the row on the given side and a row on the other side |
| Types.Find | src/App.tsx:116 | `find` by id returns a row with that id, and returns nothing exactly when no row has it |
| Types.FindFirst | src/App.tsx:116 | the row `find` returns is the first with that id: every row before it has another id |
| Types.FindUnique | src/App.tsx:116 | with distinct ids, `find` by a row's id returns that very row |
| EntryLists.Without | src/App.tsx:119 | `filter` keeps exactly the entries not dropped, in their original order |
| EntryLists.FirstWithMapping | src/App.tsx:172 | `find` by mapping id returns the first entry with that mapping id (every entry before it carries another), and returns nothing exactly when none has it; with Map's duplicate pairs this fixes which entry Unmap restores from |
| EntryLists.WithoutOnlySplit | src/App.tsx:175 | a filter splits the list into kept and dropped entries with nothing lost |
| RowIds.AssignIds | src/utils/csvParser.ts:14-17 | every loaded row keeps its cells and gets a `row-<index>` id, and the ids are distinct |
| RowIds.RowIdOfInjective | src/utils/csvParser.ts:16 | different positions give different row ids |
| RowIds.IdTextInjective | src/App.tsx:119-133 | with loader row ids, equal id strings mean equal structured entry ids |
| Types.FieldValues | src/components/MappingModal.tsx:51 | the values of a row are its synthetic id and the value of every other column |
| Projector.PutLaws | src/components/MappedPanel.tsx:141-165 | writing a field makes it hold the new value and leaves every other field as it was |
| Projector.PutKeys | src/components/MappedPanel.tsx:141-165 | writing a field adds its key at the end only when the key was absent |
| Projector.Export | src/components/MappedPanel.tsx:139-170 | the download has exactly one row per entry, in entry order |
| Projector.ExportKeys | src/components/MappedPanel.tsx:141-165 | with distinct column names, every exported row has the keys `id`, each `source_<col>`, each `target_<col>`, then `remarks` |
| Projector.ExportFields | src/components/MappedPanel.tsx:141-165 | an exported row holds the entry id's text, each column's cell for its side, and the remarks or '' |
| Projector.ExportCell | src/components/MappedPanel.tsx:144-163 | in an exported row, a column of a missing side holds ''; a column of a present side holds the value, except that a missing, empty or zero value gives ''; no exported cell is falsy except '' |
| Projector.ExportSolitarySource | src/components/MappedPanel.tsx:140-167 | a source-only entry exports '' in every target column and '' as remarks |
| Projector.Display | src/components/MappedPanel.tsx:173-203 | the grid has exactly one row per entry, in entry order |
| Projector.DisplayAgreesWithExport | src/components/MappedPanel.tsx:140-203 | an exported row is the grid row's id, its cells and its remarks; the grid row adds only the mapping id |
| Projector.AddressReachesEntry | src/components/MappedPanel.tsx:81-131 | the key a grid row passes back (`mappingId || id`) is its entry's id; unmap then finds an entry, and a remarks edit reaches that entry and its duplicates and nothing else |
| Selector.LowerIdempotent | src/components/MappingModal.tsx:52 | lower-casing twice is lower-casing once |
| Selector.IncludesSpec | src/components/MappingModal.tsx:52 | `includes` is true exactly when the term occurs as a contiguous piece, so the empty term occurs everywhere |
| Selector.MatchesSpec | src/components/MappingModal.tsx:50-54 | a row matches when some column's value, as lower-cased text, contains the lower-cased term |
| Selector.FilterCandidates | src/components/MappingModal.tsx:47-55 | the loop over the candidates returns what the search defines |
| Selector.SearchSpec | src/components/MappingModal.tsx:47-55 | the result is exactly the matching candidates, as a subsequence of the candidates and never longer; an empty term returns the candidates unchanged |
| Selector.EmptyTermKeepsAll | src/components/MappingModal.tsx:48 | every row matches the empty term, so the early return agrees with the filter |
| Selector.SearchIgnoresCase | src/components/MappingModal.tsx:52 | searching for a term and for its lower-cased form give the same rows |
| Selector.SearchFindsOwnId | src/components/MappingModal.tsx:50-54 | searching for a row's own id always shows that row |
| Modal.CandidatesAreOtherSide | src/components/MappingModal.tsx:44-45 | the dialog offers the rows of the side opposite the anchor, mapped or not |
| Modal.ConfirmGating | src/components/MappingModal.tsx:68-136 | confirm hands over the selection exactly when it is non-empty and then resets; close always resets, so the next search shows every candidate |
| Modal.ShownSelectionIsFromCandidates | src/components/MappingModal.tsx:115-122 | ids selected among the shown rows are ids of candidate rows |
| Modal.ConfirmKeepsInv | src/App.tsx:108-168 | a confirm with nothing selected reaches no Map and leaves the list as it is; one with a selection drawn from the offered rows runs Map on it, and either way the engine's invariant is kept |

## Left out

- File reading, PapaParse parsing and CSV writing, and the browser download. Rows enter the model as already-parsed cell maps. The export ends at the list of flat rows handed to `downloadCSV`.
- Column widths kept in session storage (`src/hooks/useColumnWidths.ts`), the MUI and DataGrid column definitions, styling, and the in-cell remarks editor. The editor's open state and its Escape revert are left out; its commit is modelled through `Projector.Address`.
- React effect timing. When Initialize runs is not modelled. The generator is memoised on the two data arrays (`src/App.tsx:37-61`), so the effect at `src/App.tsx:64-68` rebuilds the list after every successful upload of either file, even when the row counts stay the same. It does nothing when both sides are empty, so the old entries then survive. Those surviving entries hold rows that are no longer in the store, so the part of `Invariant.Inv` that requires every entry's rows to come from the store no longer holds at that point. `EngineLaws.InitializeForgets` records that a rebuild discards every pair and remark.
- The dialog's open/closed state and the anchor it remembers (`mappingModal`). The anchor is a parameter of Map.
- Cell values: only text and integers are modelled. Floating-point numbers, `NaN`, and JavaScript's number-to-text formatting are left out; integers print as plain decimal.
- Selector.LowerChar: lower-cases only the ASCII letters, not the full Unicode case mapping of `toLowerCase`.
- Projector.ExportKeys: assumes the column names of each side are distinct. With a repeated name, the export writes the same key twice with the same value, which `Projector.ExportFields` still covers.
- Modal.ConfirmKeepsInv: takes as given that the grid only lets the user select offered rows. The selection model of the data grid is not part of this model.
- Invariant.MapPreservesInv: holds only when some selected id names a row. The engine does not check this itself (see `EngineScenarios.MapWithNothingResolvedOrphansAnchor`).

=== FILE: engine.dfy ===
/** The reconciliation engine of src/App.tsx: the mapped table as an ordered
    list of entries, rebuilt by Initialize and changed by Map, Unmap and
    UpdateRemarks, each a pure function from the old list to the new one. */
module Engine {
  import opened Types
  import opened EntryLists

  /** One solitary entry per row, in row order (a `forEach` that pushes). */
  function SolitaryAll(side: Side, rows: seq<Row>): (r: seq<Entry>)
    ensures |r| == |rows|
    ensures forall i :: 0 <= i < |rows| ==> r[i] == Solitary(side, rows[i])
  {
    if |rows| == 0 then [] else [Solitary(side, rows[0])] + SolitaryAll(side, rows[1..])
  }

  /** `generateInitialMappedData`: the full outer join with no pairing, every
      source row alone, then every target row alone. */
  function Initialize(sources: seq<Row>, targets: seq<Row>): (r: seq<Entry>)
    ensures |r| == |sources| + |targets|
    ensures forall i :: 0 <= i < |sources| ==> r[i] == Solitary(Source, sources[i])
    ensures forall j :: 0 <= j < |targets| ==> r[|sources| + j] == Solitary(Target, targets[j])
  {
    SolitaryAll(Source, sources) + SolitaryAll(Target, targets)
  }

  /** The side of the row the mapping dialog was opened from. */
  function AnchorSide(fromSource: bool): Side {
    if fromSource then Source else Target
  }

  /** The entry pairing the anchor with one counterpart; its id always names the source row first. */
  function PairOf(side: Side, anchor: Row, other: Row): (e: Entry)
    ensures e.RowOn(side) == Some(anchor) && e.RowOn(side.Other()) == Some(other)
  {
    if side == Source then Paired(anchor, other) else Paired(other, anchor)
  }

  /** The loop over the selected ids: each id that resolves to a row drops that
      row's solitary entry and appends one pair; an id that does not resolve is skipped. */
  function Attach(acc: seq<Entry>, others: seq<Row>, side: Side, anchor: Row, selected: seq<string>): seq<Entry>
    decreases |selected|
  {
    if |selected| == 0 then acc
    else
      var next :=
        match Find(others, selected[0])
        case None => acc
        case Some(o) => Without(acc, DropIds({SolitaryId(side.Other(), selected[0])})) + [PairOf(side, anchor, o)];
      Attach(next, others, side, anchor, selected[1..])
  }

  /** `handleMappingConfirm`, both directions: map the anchor row to every selected row of the other side.
      A missing or empty anchor id, or one that names no row, leaves the list as it is. */
  function Map(es: seq<Entry>, store: Store, fromSource: bool, anchor: Option<string>, selected: seq<string>): seq<Entry> {
    if anchor.None? || anchor.value == "" then es
    else
      var side := AnchorSide(fromSource);
      match Find(store.RowsOf(side), anchor.value)
      case None => es
      case Some(a) =>
        Attach(Without(es, DropIds({SolitaryId(side, anchor.value)})), store.RowsOf(side.Other()), side, a, selected)
  }

  /** The solitary ids of the selected counterparts that resolve to rows. */
  function ResolvedIds(others: seq<Row>, side: Side, selected: seq<string>): set<EntryId> {
    if |selected| == 0 then {}
    else
      (if Find(others, selected[0]).Some? then {SolitaryId(side.Other(), selected[0])} else {})
        + ResolvedIds(others, side, selected[1..])
  }

  /** The pairs a Map appends, one per resolving selected id, in selection order. */
  function NewPairs(others: seq<Row>, side: Side, anchor: Row, selected: seq<string>): seq<Entry> {
    if |selected| == 0 then []
    else
      (match Find(others, selected[0])
       case None => []
       case Some(o) => [PairOf(side, anchor, o)])
        + NewPairs(others, side, anchor, selected[1..])
  }

  /** The removed counterpart ids are exactly the solitary ids of the selected ids that resolve. */
  lemma {:induction false} ResolvedIdsMembers(others: seq<Row>, side: Side, selected: seq<string>)
    ensures forall x :: x in selected && Find(others, x).Some? ==> SolitaryId(side.Other(), x) in ResolvedIds(others, side, selected)
    ensures forall id :: id in ResolvedIds(others, side, selected) ==>
              exists x :: x in selected && Find(others, x).Some? && id == SolitaryId(side.Other(), x)
  {
    if |selected| > 0 {
      ResolvedIdsMembers(others, side, selected[1..]);
      assert forall x :: x in selected ==> x == selected[0] || x in selected[1..];
    }
  }

  /** The appended pairs pair the anchor with rows of the other side: each resolving selected
      row gets a pair, there are never more pairs than selected ids, and there are none exactly
      when no selected id resolves. */
  lemma {:induction false} NewPairsMembers(others: seq<Row>, side: Side, anchor: Row, selected: seq<string>)
    ensures |NewPairs(others, side, anchor, selected)| <= |selected|
    ensures |NewPairs(others, side, anchor, selected)| == 0 <==> forall x :: x in selected ==> Find(others, x).None?
    ensures forall e :: e in NewPairs(others, side, anchor, selected) ==>
              exists o :: o in others && e == PairOf(side, anchor, o)
    ensures forall x :: x in selected && Find(others, x).Some? ==>
              PairOf(side, anchor, Find(others, x).value) in NewPairs(others, side, anchor, selected)
  {
    if |selected| > 0 {
      NewPairsMembers(others, side, anchor, selected[1..]);
      assert forall x :: x in selected ==> x == selected[0] || x in selected[1..];
      if Find(others, selected[0]).Some? {
        assert NewPairs(others, side, anchor, selected)[0] == PairOf(side, anchor, Find(others, selected[0]).value);
      } else {
        assert NewPairs(others, side, anchor, selected) == NewPairs(others, side, anchor, selected[1..]);
      }
    }
  }

  /** The selected ids that name a row of `others`, in selection order. */
  function Resolving(others: seq<Row>, selected: seq<string>): (r: seq<string>)
    ensures forall x :: x in r <==> x in selected && Find(others, x).Some?
    ensures IsSubsequence(r, selected)
  {
    if |selected| == 0 then []
    else if Find(others, selected[0]).Some? then [selected[0]] + Resolving(others, selected[1..])
    else Resolving(others, selected[1..])
  }

  /** Every appended pair is the anchor paired with the row of a selected id that resolves:
      no pair names a row that was not selected. */
  lemma {:induction false} NewPairsOnlySelected(others: seq<Row>, side: Side, anchor: Row, selected: seq<string>)
    ensures forall e :: e in NewPairs(others, side, anchor, selected) ==>
              exists x :: x in selected && Find(others, x).Some? && e == PairOf(side, anchor, Find(others, x).value)
  {
    if |selected| > 0 {
      NewPairsOnlySelected(others, side, anchor, selected[1..]);
      assert forall x :: x in selected[1..] ==> x in selected;
      if Find(others, selected[0]).Some? {
        assert selected[0] in selected;
      }
    }
  }

  /** The appended pairs, position by position: pair `i` is the anchor with the row of the
      `i`-th resolving selected id, so a selected id occurring twice gives two pairs. */
  lemma {:induction false} NewPairsExact(others: seq<Row>, side: Side, anchor: Row, selected: seq<string>)
    ensures var ps, ids := NewPairs(others, side, anchor, selected), Resolving(others, selected);
            && |ps| == |ids|
            && forall i :: 0 <= i < |ids| ==> Find(others, ids[i]).Some? && ps[i] == PairOf(side, anchor, Find(others, ids[i]).value)
  {
    if |selected| > 0 {
      NewPairsExact(others, side, anchor, selected[1..]);
      var ps, ids := NewPairs(others, side, anchor, selected), Resolving(others, selected);
      var ps1, ids1 := NewPairs(others, side, anchor, selected[1..]), Resolving(others, selected[1..]);
      var x := selected[0];
      if Find(others, x).Some? {
        assert ps == [PairOf(side, anchor, Find(others, x).value)] + ps1;
        assert ids == [x] + ids1;
        PairsConsOne(others, side, anchor, x, ps1, ids1);
      } else {
        assert ps == ps1 && ids == ids1;
      }
    }
  }

  /** The position-by-position pairing survives putting one more resolving id in front. */
  lemma PairsConsOne(others: seq<Row>, side: Side, anchor: Row, x: string, ps: seq<Entry>, ids: seq<string>)
    requires Find(others, x).Some?
    requires |ps| == |ids|
    requires forall i :: 0 <= i < |ids| ==> Find(others, ids[i]).Some? && ps[i] == PairOf(side, anchor, Find(others, ids[i]).value)
    ensures var ps', ids' := [PairOf(side, anchor, Find(others, x).value)] + ps, [x] + ids;
            && |ps'| == |ids'|
            && forall i :: 0 <= i < |ids'| ==> Find(others, ids'[i]).Some? && ps'[i] == PairOf(side, anchor, Find(others, ids'[i]).value)
  {
    var ps', ids' := [PairOf(side, anchor, Find(others, x).value)] + ps, [x] + ids;
    forall i | 0 <= i < |ids'|
      ensures Find(others, ids'[i]).Some? && ps'[i] == PairOf(side, anchor, Find(others, ids'[i]).value)
    {
      if i > 0 {
        assert ids'[i] == ids[i - 1] && ps'[i] == ps[i - 1];
      }
    }
  }

  /** Every id a Map with a resolving anchor filters out. */
  function Removed(store: Store, side: Side, anchorId: string, selected: seq<string>): set<EntryId> {
    {SolitaryId(side, anchorId)} + ResolvedIds(store.RowsOf(side.Other()), side, selected)
  }

  /** Put back a solitary entry for `m`'s row on `side`, unless an entry with that id is present. */
  function Restore(acc: seq<Entry>, m: Entry, side: Side): seq<Entry> {
    match m.RowOn(side)
    case None => acc
    case Some(r) => if HasId(acc, SolitaryId(side, r.id)) then acc else acc + [Solitary(side, r)]
  }

  /** `handleUnmap`: drop every entry carrying `key` as its mapping id and give the rows of the
      first such entry their solitary entries back where none is present. Unknown keys change nothing. */
  function Unmap(es: seq<Entry>, key: EntryId): seq<Entry> {
    match FirstWithMapping(es, key)
    case None => es
    case Some(m) => Restore(Restore(Without(es, DropMapping(key)), m, Source), m, Target)
  }

  /** `handleUpdateRemarks`: every entry carrying `key` as its mapping id gets the remarks `text`;
      nothing else about any entry changes. */
  function UpdateRemarks(es: seq<Entry>, key: EntryId, text: string): (r: seq<Entry>)
    ensures |r| == |es|
    ensures forall i :: 0 <= i < |es| ==>
              && r[i].id == es[i].id && r[i].source == es[i].source && r[i].target == es[i].target
              && r[i].mappingId == es[i].mappingId
    ensures forall i :: 0 <= i < |es| ==>
              r[i].remarks == (if es[i].mappingId == Some(key) then Some(text) else es[i].remarks)
  {
    seq(|es|, i requires 0 <= i < |es| => if es[i].mappingId == Some(key) then es[i].(remarks := Some(text)) else es[i])
  }

  /** An entry pairs the row `rid` of `side` with some row of the other side. */
  predicate PairsRow(e: Entry, side: Side, rid: string) {
    e.RowOn(side).Some? && e.RowOn(side).value.id == rid && e.RowOn(side.Other()).Some?
  }

  /** `isSourceRowMapped` (side Source) and `isTargetRowMapped` (side Target). */
  predicate RowMapped(es: seq<Entry>, side: Side, rid: string) {
    exists e :: e in es && PairsRow(e, side, rid)
  }

  /** The linear scan `mappedData.some(...)` behind both highlight queries. */
  method IsRowMapped(es: seq<Entry>, side: Side, rid: string) returns (mapped: bool)
    ensures mapped <==> exists i :: 0 <= i < |es| && PairsRow(es[i], side, rid)
    ensures mapped == RowMapped(es, side, rid)
  {
    mapped := false;
    var i := 0;
    while i < |es| && !mapped
      invariant 0 <= i <= |es|
      invariant mapped <==> exists k :: 0 <= k < i && PairsRow(es[k], side, rid)
    {
      mapped := PairsRow(es[i], side, rid);
      i := i + 1;
    }
  }
}

=== FILE: engine_laws.dfy ===
/** What each engine operation does to the entry list, stated against
    independent descriptions: Map is a filter followed by an append, Unmap a
    filter followed by at most two restores, UpdateRemarks a pointwise edit. */
module EngineLaws {
  import opened Types
  import opened EntryLists
  import opened Engine

  /** One resolving step of the loop keeps the shape "filtered list, then pairs". */
  lemma AttachStep(x: seq<Entry>, r0: set<EntryId>, p: seq<Entry>, id: EntryId, pair: Entry)
    requires forall e :: e in p ==> e.id.PairId?
    requires id.IsSolitary()
    ensures Without(Without(x, DropIds(r0)) + p, DropIds({id})) + [pair]
         == Without(x, DropIds(r0 + {id})) + (p + [pair])
  {
    WithoutAppend(Without(x, DropIds(r0)), p, DropIds({id}));
    WithoutNothing(p, DropIds({id}));
    WithoutTwice(x, r0, {id});
  }

  /** The loop of Map, unrolled: from a filtered list followed by pairs, it filters
      out the resolving counterparts' solitary ids and appends their pairs. */
  lemma {:induction false} AttachSpec(x: seq<Entry>, r0: set<EntryId>, p: seq<Entry>,
                                      others: seq<Row>, side: Side, anchor: Row, selected: seq<string>)
    requires forall e :: e in p ==> e.id.PairId?
    ensures Attach(Without(x, DropIds(r0)) + p, others, side, anchor, selected)
         == Without(x, DropIds(r0 + ResolvedIds(others, side, selected))) + p + NewPairs(others, side, anchor, selected)
    decreases |selected|
  {
    var acc := Without(x, DropIds(r0)) + p;
    if |selected| == 0 {
      assert r0 + ResolvedIds(others, side, selected) == r0;
      assert p + NewPairs(others, side, anchor, selected) == p;
    } else {
      var rest := selected[1..];
      var found := Find(others, selected[0]);
      if found.None? {
        assert Attach(acc, others, side, anchor, selected) == Attach(acc, others, side, anchor, rest);
        assert ResolvedIds(others, side, selected) == ResolvedIds(others, side, rest);
        assert NewPairs(others, side, anchor, selected) == NewPairs(others, side, anchor, rest);
        AttachSpec(x, r0, p, others, side, anchor, rest);
      } else {
        var id := SolitaryId(side.Other(), selected[0]);
        var pair := PairOf(side, anchor, found.value);
        var restIds := ResolvedIds(others, side, rest);
        var restPairs := NewPairs(others, side, anchor, rest);
        var all := r0 + ResolvedIds(others, side, selected);
        var kept := Without(x, DropIds(all));
        assert Attach(acc, others, side, anchor, selected)
            == Attach(Without(x, DropIds(r0 + {id})) + (p + [pair]), others, side, anchor, rest) by {
          var next := Without(acc, DropIds({id})) + [pair];
          assert Attach(acc, others, side, anchor, selected) == Attach(next, others, side, anchor, rest);
          AttachStep(x, r0, p, id, pair);
        }
        assert forall e :: e in p + [pair] ==> e.id.PairId?;
        AttachSpec(x, r0 + {id}, p + [pair], others, side, anchor, rest);
        assert r0 + {id} + restIds == all by {
          assert ResolvedIds(others, side, selected) == {id} + restIds;
        }
        assert NewPairs(others, side, anchor, selected) == [pair] + restPairs;
        ConcatRegroup(kept, p, [pair], restPairs);
      }
    }
  }

  /** Map is "remove the anchor's and the resolving counterparts' solitary entries,
      keep everything else in order, then append one pair per resolving id";
      with a missing, empty or unknown anchor id it is the identity. */
  lemma MapSpec(es: seq<Entry>, store: Store, fromSource: bool, anchor: Option<string>, selected: seq<string>)
    ensures anchor.None? || anchor.value == "" || Find(store.RowsOf(AnchorSide(fromSource)), anchor.value).None?
            ==> Map(es, store, fromSource, anchor, selected) == es
    ensures anchor.Some? && anchor.value != "" && Find(store.RowsOf(AnchorSide(fromSource)), anchor.value).Some?
            ==> Map(es, store, fromSource, anchor, selected)
                == Without(es, DropIds(Removed(store, AnchorSide(fromSource), anchor.value, selected)))
                   + NewPairs(store.RowsOf(AnchorSide(fromSource).Other()), AnchorSide(fromSource),
                              Find(store.RowsOf(AnchorSide(fromSource)), anchor.value).value, selected)
  {
    if anchor.Some? && anchor.value != "" {
      var side := AnchorSide(fromSource);
      match Find(store.RowsOf(side), anchor.value)
      case None =>
      case Some(a) =>
        var x := Without(es, DropIds({SolitaryId(side, anchor.value)}));
        assert x + [] == x;
        AttachSpec(es, {SolitaryId(side, anchor.value)}, [], store.RowsOf(side.Other()), side, a, selected);
    }
  }

  /** After a Map whose anchor resolves, the list is the surviving entries of the old list, in
      their old order, followed by the new pairs, at most one per selected id. */
  lemma MapFrame(es: seq<Entry>, store: Store, fromSource: bool, anchorId: string, selected: seq<string>)
    requires anchorId != ""
    requires Find(store.RowsOf(AnchorSide(fromSource)), anchorId).Some?
    ensures var side := AnchorSide(fromSource);
            var r := Map(es, store, fromSource, Some(anchorId), selected);
            var pairs := NewPairs(store.RowsOf(side.Other()), side, Find(store.RowsOf(side), anchorId).value, selected);
            && |pairs| <= |selected|
            && |pairs| <= |r|
            && r[|r| - |pairs|..] == pairs
            && IsSubsequence(r[..|r| - |pairs|], es)
            && (forall e :: e in r[..|r| - |pairs|] <==> e in es && e.id !in Removed(store, side, anchorId, selected))
  {
    var side := AnchorSide(fromSource);
    var a := Find(store.RowsOf(side), anchorId).value;
    var kept := Without(es, DropIds(Removed(store, side, anchorId, selected)));
    var pairs := NewPairs(store.RowsOf(side.Other()), side, a, selected);
    MapSpec(es, store, fromSource, Some(anchorId), selected);
    NewPairsMembers(store.RowsOf(side.Other()), side, a, selected);
    var r := kept + pairs;
    assert r[|r| - |pairs|..] == pairs;
    assert r[..|r| - |pairs|] == kept;
  }

  /** After a Map whose anchor resolves: no entry is the anchor's solitary entry or the solitary
      entry of a selected row that resolves, and each such row has a pair with the anchor. */
  lemma MapEffects(es: seq<Entry>, store: Store, fromSource: bool, anchorId: string, selected: seq<string>)
    requires anchorId != ""
    requires Find(store.RowsOf(AnchorSide(fromSource)), anchorId).Some?
    ensures var side := AnchorSide(fromSource);
            var r := Map(es, store, fromSource, Some(anchorId), selected);
            var others := store.RowsOf(side.Other());
            && (forall e :: e in r ==> e.id != SolitaryId(side, anchorId))
            && (forall x, e :: x in selected && Find(others, x).Some? && e in r ==> e.id != SolitaryId(side.Other(), x))
            && (forall x :: x in selected && Find(others, x).Some? ==>
                  PairOf(side, Find(store.RowsOf(side), anchorId).value, Find(others, x).value) in r)
  {
    var side := AnchorSide(fromSource);
    var a := Find(store.RowsOf(side), anchorId).value;
    var others := store.RowsOf(side.Other());
    var removed := Removed(store, side, anchorId, selected);
    var kept := Without(es, DropIds(removed));
    var pairs := NewPairs(others, side, a, selected);
    MapSpec(es, store, fromSource, Some(anchorId), selected);
    ResolvedIdsMembers(others, side, selected);
    NewPairsMembers(others, side, a, selected);
    var r := kept + pairs;
    forall e: Entry | e in r
      ensures e.id.PairId? || e.id !in removed
    {
      if e !in kept {
        assert e in pairs;
      }
    }
  }

  /** Mapping source `a` to target `b` alone drops both solitary ids and appends their pair. */
  lemma MapSourceToOne(es: seq<Entry>, store: Store, a: Row, b: Row)
    requires a.id != "" && Find(store.sources, a.id) == Some(a) && Find(store.targets, b.id) == Some(b)
    ensures Map(es, store, true, Some(a.id), [b.id])
         == Without(es, DropIds({SourceOnlyId(a.id), TargetOnlyId(b.id)})) + [Paired(a, b)]
  {
    MapSpec(es, store, true, Some(a.id), [b.id]);
    assert [b.id][1..] == [];
    assert ResolvedIds(store.targets, Source, [b.id]) == {TargetOnlyId(b.id)};
    assert NewPairs(store.targets, Source, a, [b.id]) == [Paired(a, b)];
    assert Removed(store, Source, a.id, [b.id]) == {SourceOnlyId(a.id), TargetOnlyId(b.id)};
  }

  /** Mapping target `b` to source `a` alone drops both solitary ids and appends their pair,
      the source row still first in it. */
  lemma MapTargetToOne(es: seq<Entry>, store: Store, a: Row, b: Row)
    requires b.id != "" && Find(store.sources, a.id) == Some(a) && Find(store.targets, b.id) == Some(b)
    ensures Map(es, store, false, Some(b.id), [a.id])
         == Without(es, DropIds({SourceOnlyId(a.id), TargetOnlyId(b.id)})) + [Paired(a, b)]
  {
    MapSpec(es, store, false, Some(b.id), [a.id]);
    assert [a.id][1..] == [];
    assert ResolvedIds(store.sources, Target, [a.id]) == {SourceOnlyId(a.id)};
    assert NewPairs(store.sources, Target, b, [a.id]) == [Paired(a, b)];
    assert Removed(store, Target, b.id, [a.id]) == {SourceOnlyId(a.id), TargetOnlyId(b.id)};
  }

  /** The pair id orientation does not depend on the anchor side: mapping source `s` to
      target `t` and mapping target `t` to source `s` produce the same list. */
  lemma MapDirectionAgnostic(es: seq<Entry>, store: Store, s: string, t: string)
    requires s != "" && t != ""
    requires Find(store.sources, s).Some? && Find(store.targets, t).Some?
    ensures Map(es, store, true, Some(s), [t]) == Map(es, store, false, Some(t), [s])
  {
    var src := Find(store.sources, s).value;
    var tgt := Find(store.targets, t).value;
    assert src.id == s && tgt.id == t;
    MapSourceToOne(es, store, src, tgt);
    MapTargetToOne(es, store, src, tgt);
  }

  /** One restore keeps the list as a prefix and appends at most the solitary entry of `m`'s row on `side`,
      after which an entry with that solitary id is present: the entry is appended exactly when no
      entry with its id was there, and nothing changes when `m` has no row on `side`. */
  lemma RestoreSpec(acc: seq<Entry>, m: Entry, side: Side)
    ensures var r := Restore(acc, m, side);
            && |acc| <= |r| <= |acc| + 1
            && r[..|acc|] == acc
            && (forall e :: e in r[|acc|..] ==> m.RowOn(side).Some? && e == Solitary(side, m.RowOn(side).value))
            && (m.RowOn(side).Some? ==> HasId(r, SolitaryId(side, m.RowOn(side).value.id)))
    ensures m.RowOn(side).None? ==> Restore(acc, m, side) == acc
    ensures m.RowOn(side).Some? && HasId(acc, SolitaryId(side, m.RowOn(side).value.id)) ==>
              Restore(acc, m, side) == acc
    ensures m.RowOn(side).Some? && !HasId(acc, SolitaryId(side, m.RowOn(side).value.id)) ==>
              Restore(acc, m, side) == acc + [Solitary(side, m.RowOn(side).value)]
  {
    var r := Restore(acc, m, side);
    assert r[..|acc|] == acc;
    if m.RowOn(side).Some? && r != acc {
      assert r[|acc|] == Solitary(side, m.RowOn(side).value);
    }
  }

  /** The solitary entry of `m`'s row on `side` when `acc` holds no entry with its id, and
      nothing otherwise. */
  function Missing(acc: seq<Entry>, m: Entry, side: Side): seq<Entry> {
    match m.RowOn(side)
    case None => []
    case Some(row) => if HasId(acc, SolitaryId(side, row.id)) then [] else [Solitary(side, row)]
  }

  /** `e` is a fresh solitary entry for one of the rows of `m`. */
  predicate RestoredFrom(e: Entry, m: Entry) {
    || (m.source.Some? && e == Solitary(Source, m.source.value))
    || (m.target.Some? && e == Solitary(Target, m.target.value))
  }

  /** Unmap is "drop every entry carrying `key`, keep the rest in order, then append the
      missing solitary entries of the first dropped entry's rows". An unknown key changes nothing. */
  lemma UnmapSpec(es: seq<Entry>, key: EntryId)
    ensures FirstWithMapping(es, key).None? ==> Unmap(es, key) == es
    ensures FirstWithMapping(es, key).Some? ==>
              var m := FirstWithMapping(es, key).value;
              var kept := Without(es, DropMapping(key));
              var r := Unmap(es, key);
              && |kept| <= |r| <= |kept| + 2
              && r[..|kept|] == kept
              && (forall e :: e in es && e.mappingId != Some(key) ==> e in r)
              && (forall e :: e in r[|kept|..] ==> RestoredFrom(e, m))
              && (forall side: Side :: m.RowOn(side).Some? ==> HasId(r, SolitaryId(side, m.RowOn(side).value.id)))
              && r == kept + Missing(kept, m, Source) + Missing(kept, m, Target)
  {
    var f := FirstWithMapping(es, key);
    if f.Some? {
      var m := f.value;
      var kept := Without(es, DropMapping(key));
      var r := Unmap(es, key);
      assert r == Restore(Restore(kept, m, Source), m, Target);
      RestoreBoth(kept, m);
      forall e | e in kept
        ensures e in r
      {
        assert e in r[..|kept|];
      }
    }
  }

  /** Restoring both rows of `m` keeps the list as a prefix, appends at most one solitary entry
      per row, and leaves each row of `m` with its solitary id present. Exactly the solitary
      entries whose ids the filtered list lacks are appended, the source row's first: the
      source entry a first restore appends never hides the target's absence from the second. */
  lemma RestoreBoth(kept: seq<Entry>, m: Entry)
    ensures var r := Restore(Restore(kept, m, Source), m, Target);
            && |kept| <= |r| <= |kept| + 2
            && r[..|kept|] == kept
            && (forall e :: e in r[|kept|..] ==> RestoredFrom(e, m))
            && (forall side: Side :: m.RowOn(side).Some? ==> HasId(r, SolitaryId(side, m.RowOn(side).value.id)))
    ensures Restore(Restore(kept, m, Source), m, Target) == kept + Missing(kept, m, Source) + Missing(kept, m, Target)
  {
    var s := Restore(kept, m, Source);
    var r := Restore(s, m, Target);
    RestoreSpec(kept, m, Source);
    RestoreSpec(s, m, Target);
    assert s == kept + Missing(kept, m, Source);
    assert Missing(s, m, Target) == Missing(kept, m, Target) by {
      if m.target.Some? {
        var id := TargetOnlyId(m.target.value.id);
        assert SolitaryId(Target, m.target.value.id) == id;
        assert forall e :: e in Missing(kept, m, Source) ==> e.id != id;
        assert HasId(s, id) == HasId(kept, id);
      }
    }
    assert r == s + Missing(s, m, Target);
    assert r[..|kept|] == kept by {
      assert r[..|kept|] == r[..|s|][..|kept|];
    }
    forall e | e in r[|kept|..]
      ensures RestoredFrom(e, m)
    {
      assert r[|kept|..] == s[|kept|..] + r[|s|..];
      if e in s[|kept|..] {
        assert m.RowOn(Source).Some? && e == Solitary(Source, m.RowOn(Source).value);
      } else {
        assert m.RowOn(Target).Some? && e == Solitary(Target, m.RowOn(Target).value);
      }
    }
    forall side: Side | m.RowOn(side).Some?
      ensures HasId(r, SolitaryId(side, m.RowOn(side).value.id))
    {
      if side == Source {
        var id := SolitaryId(side, m.RowOn(side).value.id);
        var e :| e in s && e.id == id;
        assert e in r[..|s|];
      }
    }
  }

  /** Re-running Initialize discards every pair and every remark. */
  lemma InitializeForgets(sources: seq<Row>, targets: seq<Row>)
    ensures forall e :: e in Initialize(sources, targets) ==> e.id.IsSolitary() && e.remarks.None?
    ensures forall side: Side, rid :: !RowMapped(Initialize(sources, targets), side, rid)
  {
    var r := Initialize(sources, targets);
    forall e | e in r
      ensures e.id.IsSolitary() && e.remarks.None? && (e.source.None? || e.target.None?)
    {
      var i :| 0 <= i < |r| && r[i] == e;
      if i >= |sources| {
        assert r[|sources| + (i - |sources|)] == e;
      }
    }
  }

  /** UpdateRemarks with a key no entry carries is the identity. */
  lemma UpdateRemarksUnknownKey(es: seq<Entry>, key: EntryId, text: string)
    requires forall e :: e in es ==> e.mappingId != Some(key)
    ensures UpdateRemarks(es, key, text) == es
  {
    var r := UpdateRemarks(es, key, text);
    forall i | 0 <= i < |es|
      ensures r[i] == es[i]
    {
      assert es[i] in es;
    }
  }

  /** The last remark written for a key wins, and writing one twice is writing it once. */
  lemma UpdateRemarksLastWriteWins(es: seq<Entry>, key: EntryId, first: string, second: string)
    ensures UpdateRemarks(UpdateRemarks(es, key, first), key, second) == UpdateRemarks(es, key, second)
  {
    var a := UpdateRemarks(UpdateRemarks(es, key, first), key, second);
    var b := UpdateRemarks(es, key, second);
    forall i | 0 <= i < |es|
      ensures a[i] == b[i]
    {
    }
  }
}

=== FILE: engine_scenarios.dfy ===
/** Whole-workflow consequences of the engine's definitions: what a Map followed by
    an Unmap gives back, and the places where the engine keeps less than a strict
    one-entry-per-row partition (duplicate pairs, a solitary entry beside a pair,
    an anchor left unreferenced by a Map that pairs nothing). */
module EngineScenarios {
  import opened Types
  import opened EntryLists
  import opened Engine
  import opened EngineLaws
  import opened Invariant

  /** Mapping a source row to one target row adds exactly one entry with the pair's id,
      whether or not that id is already present: Map does not de-duplicate. */
  lemma MapAddsOnePairEntry(es: seq<Entry>, store: Store, s: string, t: string)
    requires s != ""
    requires Find(store.sources, s).Some? && Find(store.targets, t).Some?
    ensures CountId(Map(es, store, true, Some(s), [t]), PairId(s, t)) == CountId(es, PairId(s, t)) + 1
  {
    var src := Find(store.sources, s).value;
    var tgt := Find(store.targets, t).value;
    MapSpec(es, store, true, Some(s), [t]);
    assert [t][1..] == [];
    assert ResolvedIds(store.targets, Source, [t]) == {TargetOnlyId(t)};
    assert NewPairs(store.targets, Source, src, [t]) == [Paired(src, tgt)];
    var removed := Removed(store, Source, s, [t]);
    CountWithout(es, DropIds(removed), PairId(s, t));
    CountAppend(Without(es, DropIds(removed)), [Paired(src, tgt)], PairId(s, t));
  }

  /** Mapping the same pair twice, once from each side, leaves two entries with one id. */
  lemma MapTwiceDuplicatesPair(store: Store, s: string, t: string)
    requires s != "" && t != ""
    requires Find(store.sources, s).Some? && Find(store.targets, t).Some?
    ensures var es := Initialize(store.sources, store.targets);
            CountId(Map(Map(es, store, true, Some(s), [t]), store, false, Some(t), [s]), PairId(s, t)) == 2
  {
    var es := Initialize(store.sources, store.targets);
    forall e | e in es
      ensures e.id.IsSolitary()
    {
      InitializeForgets(store.sources, store.targets);
    }
    var once := Map(es, store, true, Some(s), [t]);
    MapAddsOnePairEntry(es, store, s, t);
    MapDirectionAgnostic(once, store, s, t);
    MapAddsOnePairEntry(once, store, s, t);
  }

  /** FirstWithMapping finds the appended entry when the prefix carries no such mapping id. */
  lemma FirstWithMappingAfter(kept: seq<Entry>, p: Entry, key: EntryId)
    requires forall e :: e in kept ==> e.mappingId != Some(key)
    requires p.mappingId == Some(key)
    ensures FirstWithMapping(kept + [p], key) == Some(p)
  {
    var f := FirstWithMapping(kept + [p], key);
    assert f.Some?;
    assert f.value in kept + [p];
  }

  /** An entry dropped by its id is the one entry carrying that id. */
  lemma OnlyMember(es: seq<Entry>, x: Entry, y: Entry, e: Entry)
    requires x in es && y in es
    requires CountId(es, x.id) <= 1 && CountId(es, y.id) <= 1
    requires e in Only(es, DropIds({x.id, y.id}))
    ensures e == x || e == y
  {
    if e.id == x.id {
      CountOneUnique(es, x, e);
    } else {
      CountOneUnique(es, y, e);
    }
  }

  /** The dropped part of a list holding `x` and `y` under ids counted once, and nothing else under them. */
  lemma OnlyTwo(es: seq<Entry>, x: Entry, y: Entry)
    requires x in es && y in es && x.id != y.id
    requires CountId(es, x.id) <= 1 && CountId(es, y.id) <= 1
    ensures multiset(Only(es, DropIds({x.id, y.id}))) == multiset{x, y}
  {
    var o := Only(es, DropIds({x.id, y.id}));
    assert |o| == 2 by {
      OnlyTwoLength(es, x.id, y.id);
    }
    assert o[0] == x || o[0] == y by {
      OnlyMember(es, x, y, o[0]);
    }
    assert o[1] == x || o[1] == y by {
      OnlyMember(es, x, y, o[1]);
    }
    assert x in o && y in o;
    assert o == [o[0], o[1]];
  }

  /** Unmapping a pair that was appended last, to a list holding neither its mapping id nor
      its rows' solitary ids, gives the list back with both solitary entries appended. */
  lemma UnmapLastPair(kept: seq<Entry>, a: Row, b: Row)
    requires forall e :: e in kept ==> e.mappingId != Some(PairId(a.id, b.id))
    requires !HasId(kept, SourceOnlyId(a.id)) && !HasId(kept, TargetOnlyId(b.id))
    ensures Unmap(kept + [Paired(a, b)], PairId(a.id, b.id)) == kept + [Solitary(Source, a), Solitary(Target, b)]
  {
    var key := PairId(a.id, b.id);
    var p := Paired(a, b);
    var sa, tb := Solitary(Source, a), Solitary(Target, b);
    FirstWithMappingAfter(kept, p, key);
    WithoutAppend(kept, [p], DropMapping(key));
    WithoutNothing(kept, DropMapping(key));
    assert Without([p], DropMapping(key)) == [];
    assert Without(kept + [p], DropMapping(key)) == kept;
    assert Restore(kept, p, Source) == kept + [sa];
    assert !HasId(kept + [sa], TargetOnlyId(b.id));
    assert Restore(kept + [sa], p, Target) == kept + [sa] + [tb];
    assert kept + [sa] + [tb] == kept + [sa, tb];
  }

  /** Mapping a solitary source row to a solitary target row and unmapping the new pair gives
      back the same entries, the two solitary entries now at the end: the removed entries
      return, with the filtered list otherwise untouched. */
  lemma MapThenUnmapRestores(store: Store, es: seq<Entry>, a: Row, b: Row)
    requires Inv(store, es)
    requires a.id != "" && a in store.sources && b in store.targets
    requires Solitary(Source, a) in es && Solitary(Target, b) in es
    requires !HasId(es, PairId(a.id, b.id))
    ensures var r := Unmap(Map(es, store, true, Some(a.id), [b.id]), PairId(a.id, b.id));
            && r == Without(es, DropIds({SourceOnlyId(a.id), TargetOnlyId(b.id)})) + [Solitary(Source, a), Solitary(Target, b)]
            && multiset(r) == multiset(es)
  {
    var sa, tb := Solitary(Source, a), Solitary(Target, b);
    var key := PairId(a.id, b.id);
    var ids := {SourceOnlyId(a.id), TargetOnlyId(b.id)};
    var kept := Without(es, DropIds(ids));
    FindUnique(store.sources, a);
    FindUnique(store.targets, b);
    MapSourceToOne(es, store, a, b);
    forall e | e in kept
      ensures e.mappingId != Some(key)
    {
      assert WellFormed(e, store);
    }
    UnmapLastPair(kept, a, b);
    WithoutOnlySplit(es, DropIds(ids));
    OnlyTwo(es, sa, tb);
    assert multiset(kept + [sa, tb]) == multiset(kept) + multiset{sa, tb};
  }

  /** After a Map whose anchor resolves, the anchor row and every resolving selected row count as mapped. */
  lemma MapMarksRowsMapped(es: seq<Entry>, store: Store, fromSource: bool, anchorId: string, selected: seq<string>)
    requires anchorId != ""
    requires Find(store.RowsOf(AnchorSide(fromSource)), anchorId).Some?
    ensures var side := AnchorSide(fromSource);
            var r := Map(es, store, fromSource, Some(anchorId), selected);
            && (forall x :: x in selected && Find(store.RowsOf(side.Other()), x).Some? ==> RowMapped(r, side.Other(), x))
            && ((exists x :: x in selected && Find(store.RowsOf(side.Other()), x).Some?) ==> RowMapped(r, side, anchorId))
  {
    var side := AnchorSide(fromSource);
    var a := Find(store.RowsOf(side), anchorId).value;
    var others := store.RowsOf(side.Other());
    var r := Map(es, store, fromSource, Some(anchorId), selected);
    MapEffects(es, store, fromSource, anchorId, selected);
    forall x | x in selected && Find(others, x).Some?
      ensures RowMapped(r, side.Other(), x) && RowMapped(r, side, anchorId)
    {
      var p := PairOf(side, a, Find(others, x).value);
      assert p in r && PairsRow(p, side.Other(), x) && PairsRow(p, side, anchorId);
    }
  }

  // A two-source, one-target store used by the concrete scenarios below.
  const s0: Row := Row("row-0", map["name" := Str("Alice")])
  const s1: Row := Row("row-1", map["name" := Str("Bob")])
  const t0: Row := Row("row-0", map["name" := Str("Alicia")])

  /** Both sources of the two-source store mapped, one after the other, to the one target. */
  lemma TwoSourcesShareTarget()
    ensures var store := Store([s0, s1], [t0]);
            var es := Initialize(store.sources, store.targets);
            Map(Map(es, store, true, Some("row-0"), ["row-0"]), store, true, Some("row-1"), ["row-0"])
              == [Paired(s0, t0), Paired(s1, t0)]
  {
    var store := Store([s0, s1], [t0]);
    assert Initialize(store.sources, store.targets) == [Solitary(Source, s0), Solitary(Source, s1), Solitary(Target, t0)];
    SharedTargetFirstMap();
    SharedTargetSecondMap();
  }

  /** The first Map of the two-source scenario pairs `s0` with `t0` and leaves `s1` solitary. */
  lemma SharedTargetFirstMap()
    ensures Map([Solitary(Source, s0), Solitary(Source, s1), Solitary(Target, t0)], Store([s0, s1], [t0]), true, Some("row-0"), ["row-0"])
         == [Solitary(Source, s1), Paired(s0, t0)]
  {
    var store := Store([s0, s1], [t0]);
    var es := [Solitary(Source, s0), Solitary(Source, s1), Solitary(Target, t0)];
    assert Find(store.sources, "row-0") == Some(s0);
    assert Find(store.targets, "row-0") == Some(t0);
    MapSourceToOne(es, store, s0, t0);
    var d := DropIds({SourceOnlyId("row-0"), TargetOnlyId("row-0")});
    assert Without([Solitary(Target, t0)], d) == [];
    assert Without([Solitary(Source, s1), Solitary(Target, t0)], d) == [Solitary(Source, s1)];
    assert Without(es, d) == [Solitary(Source, s1)];
  }

  /** The second Map pairs `s1` with the already paired `t0`, keeping the first pair. */
  lemma SharedTargetSecondMap()
    ensures Map([Solitary(Source, s1), Paired(s0, t0)], Store([s0, s1], [t0]), true, Some("row-1"), ["row-0"])
         == [Paired(s0, t0), Paired(s1, t0)]
  {
    var store := Store([s0, s1], [t0]);
    var one := [Solitary(Source, s1), Paired(s0, t0)];
    assert Find(store.sources, "row-1") == Some(s1);
    assert Find(store.targets, "row-0") == Some(t0);
    MapSourceToOne(one, store, s1, t0);
    var d1 := DropIds({SourceOnlyId("row-1"), TargetOnlyId("row-0")});
    assert Without([Paired(s0, t0)], d1) == [Paired(s0, t0)];
    assert Without(one, d1) == [Paired(s0, t0)];
  }

  /** Two sources mapped to one target, then one of the two pairs unmapped: the target's
      solitary entry comes back although the other pair still holds the target, so the
      target is referenced twice. Unmap only looks for a solitary entry, not for other pairs. */
  lemma UnmapKeepsSolitaryBesidePair()
    ensures var r := Unmap([Paired(s0, t0), Paired(s1, t0)], PairId("row-0", "row-0"));
            && r == [Paired(s1, t0), Solitary(Source, s0), Solitary(Target, t0)]
            && RowMapped(r, Target, "row-0") && HasId(r, TargetOnlyId("row-0"))
  {
    var both := [Paired(s0, t0), Paired(s1, t0)];
    var key := PairId("row-0", "row-0");
    assert FirstWithMapping(both, key) == Some(Paired(s0, t0));
    assert Without([Paired(s1, t0)], DropMapping(key)) == [Paired(s1, t0)];
    assert Without(both, DropMapping(key)) == [Paired(s1, t0)];
    var r := Unmap(both, key);
    assert !HasId([Paired(s1, t0)], SourceOnlyId("row-0"));
    assert !HasId([Paired(s1, t0), Solitary(Source, s0)], TargetOnlyId("row-0"));
    assert r == [Paired(s1, t0), Solitary(Source, s0), Solitary(Target, t0)];
    assert PairsRow(r[0], Target, "row-0");
    assert r[2].id == TargetOnlyId("row-0");
  }

  /** A Map whose anchor resolves but whose selection resolves nothing still drops the
      anchor's solitary entry, so the anchor row is then held by no entry at all. The
      mapping dialog never makes this call: its confirm button needs a non-empty selection
      drawn from the candidate rows. */
  lemma MapWithNothingResolvedOrphansAnchor()
    ensures var store := Store([s0], []);
            var es := Initialize(store.sources, store.targets);
            && Inv(store, es)
            && Map(es, store, true, Some("row-0"), []) == []
            && !Covered(Map(es, store, true, Some("row-0"), []), store)
  {
    var store := Store([s0], []);
    var es := Initialize(store.sources, store.targets);
    InitializeEstablishesInv(store);
    assert Find(store.sources, "row-0") == Some(s0);
    assert es == [Solitary(Source, s0)];
    var r := Map(es, store, true, Some("row-0"), []);
    assert r == Without(es, DropIds({SourceOnlyId("row-0")}));
    assert r == [];
    assert s0 in store.RowsOf(Source) && !Referenced(r, Source, s0);
  }

  /** The entries the single-row store starts with. */
  lemma OnePairStart()
    ensures Initialize([s0], [t0]) == [Solitary(Source, s0), Solitary(Target, t0)]
  {
  }

  /** Mapping the one source row to the one target row leaves only their pair. */
  lemma OnePairMapped()
    ensures Map([Solitary(Source, s0), Solitary(Target, t0)], Store([s0], [t0]), true, Some("row-0"), ["row-0"])
         == [Paired(s0, t0)]
  {
    var store := Store([s0], [t0]);
    var es := [Solitary(Source, s0), Solitary(Target, t0)];
    assert Find(store.sources, "row-0") == Some(s0);
    assert Find(store.targets, "row-0") == Some(t0);
    MapSourceToOne(es, store, s0, t0);
    assert Without(es, DropIds({SourceOnlyId("row-0"), TargetOnlyId("row-0")})) == [];
  }

  /** Unmapping the annotated pair brings both solitary entries back, without the remark. */
  lemma OnePairUnmapped(text: string)
    ensures Unmap([Paired(s0, t0).(remarks := Some(text))], PairId("row-0", "row-0"))
         == [Solitary(Source, s0), Solitary(Target, t0)]
  {
    var key := PairId("row-0", "row-0");
    var noted := [Paired(s0, t0).(remarks := Some(text))];
    assert FirstWithMapping(noted, key) == Some(noted[0]);
    assert Without(noted, DropMapping(key)) == [];
    assert Restore([], noted[0], Source) == [Solitary(Source, s0)];
  }

  /** The one-pair life cycle: Initialize, Map, UpdateRemarks, Unmap ends with the
      list Initialize produced, the remark gone with the pair. */
  lemma OnePairLifeCycle()
    ensures var store := Store([s0], [t0]);
            var es := Initialize(store.sources, store.targets);
            var mapped := Map(es, store, true, Some("row-0"), ["row-0"]);
            var noted := UpdateRemarks(mapped, PairId("row-0", "row-0"), "fuzzy match");
            && es == [Solitary(Source, s0), Solitary(Target, t0)]
            && mapped == [Paired(s0, t0)]
            && noted == [Paired(s0, t0).(remarks := Some("fuzzy match"))]
            && Unmap(noted, PairId("row-0", "row-0")) == es
  {
    OnePairStart();
    OnePairMapped();
    var noted := UpdateRemarks([Paired(s0, t0)], PairId("row-0", "row-0"), "fuzzy match");
    assert noted == [Paired(s0, t0).(remarks := Some("fuzzy match"))];
    OnePairUnmapped("fuzzy match");
  }
}

=== FILE: entrylists.dfy ===
/** The list primitives the engine is written with: `find` on
    entries, `filter` that drops entries, and counting entries by id. */
module EntryLists {
  import opened Types

  /** `a` is `b` with some elements left out, the rest in their original order. */
  predicate IsSubsequence<T(==)>(a: seq<T>, b: seq<T>)
    decreases |b|
  {
    |a| == 0 || (|b| > 0 && if a[0] == b[0] then IsSubsequence(a[1..], b[1..]) else IsSubsequence(a, b[1..]))
  }

  lemma {:induction false} SubsequenceIsShorter<T>(a: seq<T>, b: seq<T>)
    requires IsSubsequence(a, b)
    ensures |a| <= |b|
    ensures forall x :: x in a ==> x in b
    decreases |b|
  {
    if |a| > 0 {
      if a[0] == b[0] {
        SubsequenceIsShorter(a[1..], b[1..]);
        assert forall x :: x in a ==> x == a[0] || x in a[1..];
      } else {
        SubsequenceIsShorter(a, b[1..]);
      }
    }
  }

  /** Regrouping a concatenation. Stated as lemmas so that a proof brings in only the one
      instance it needs rather than reasoning about sequence equality in a large context. */
  lemma ConcatAssoc<T>(a: seq<T>, b: seq<T>, c: seq<T>)
    ensures a + b + c == a + (b + c)
  {
  }

  lemma ConcatRegroup<T>(a: seq<T>, b: seq<T>, c: seq<T>, d: seq<T>)
    ensures a + (b + c) + d == a + b + (c + d)
  {
  }

  /** Which entries a `filter` drops: those whose id is in a set, or those with a given `mappingId`. */
  datatype Drop = DropIds(ids: set<EntryId>) | DropMapping(key: EntryId)

  predicate Dropped(e: Entry, d: Drop) {
    match d
    case DropIds(ids) => e.id in ids
    case DropMapping(key) => e.mappingId == Some(key)
  }

  /** The number of entries carrying id `id`. */
  function CountId(es: seq<Entry>, id: EntryId): (n: nat)
    ensures n <= |es|
    ensures n == 0 <==> forall e :: e in es ==> e.id != id
  {
    if |es| == 0 then 0
    else (if es[0].id == id then 1 else 0) + CountId(es[1..], id)
  }

  /** `es.some(row => row.id === id)`. */
  predicate HasId(es: seq<Entry>, id: EntryId) {
    exists e :: e in es && e.id == id
  }

  /** `es.filter(...)` keeping the entries `d` does not drop. */
  function Without(es: seq<Entry>, d: Drop): (r: seq<Entry>)
    ensures forall e :: e in r <==> e in es && !Dropped(e, d)
    ensures IsSubsequence(r, es)
  {
    if |es| == 0 then []
    else if Dropped(es[0], d) then Without(es[1..], d)
    else [es[0]] + Without(es[1..], d)
  }

  /** The entries `d` drops, in order: the complement of `Without`. */
  function Only(es: seq<Entry>, d: Drop): (r: seq<Entry>)
    ensures forall e :: e in r <==> e in es && Dropped(e, d)
  {
    if |es| == 0 then []
    else if Dropped(es[0], d) then [es[0]] + Only(es[1..], d)
    else Only(es[1..], d)
  }

  /** `es.find(row => row.mappingId === key)`: the first entry carrying `key`. */
  function FirstWithMapping(es: seq<Entry>, key: EntryId): (r: Option<Entry>)
    ensures r.Some? ==> r.value in es && r.value.mappingId == Some(key)
    ensures r.None? <==> forall e :: e in es ==> e.mappingId != Some(key)
    ensures r.Some? ==> exists i :: 0 <= i < |es| && es[i] == r.value && forall j :: 0 <= j < i ==> es[j].mappingId != Some(key)
  {
    if |es| == 0 then None
    else if es[0].mappingId == Some(key) then Some(es[0])
    else FirstWithMapping(es[1..], key)
  }

  lemma {:induction false} CountAppend(a: seq<Entry>, b: seq<Entry>, id: EntryId)
    ensures CountId(a + b, id) == CountId(a, id) + CountId(b, id)
  {
    if |a| > 0 {
      assert (a + b)[1..] == a[1..] + b;
      CountAppend(a[1..], b, id);
    } else {
      assert a + b == b;
    }
  }

  /** Filtering never adds an entry with a given id, and removes every one it drops. */
  lemma {:induction false} CountWithout(es: seq<Entry>, d: Drop, id: EntryId)
    ensures CountId(Without(es, d), id) <= CountId(es, id)
    ensures d.DropIds? && id in d.ids ==> CountId(Without(es, d), id) == 0
    ensures d.DropIds? && id !in d.ids ==> CountId(Without(es, d), id) == CountId(es, id)
  {
    if |es| > 0 {
      CountWithout(es[1..], d, id);
      if !Dropped(es[0], d) {
        CountAppend([es[0]], Without(es[1..], d), id);
      }
    }
  }

  lemma {:induction false} WithoutAppend(a: seq<Entry>, b: seq<Entry>, d: Drop)
    ensures Without(a + b, d) == Without(a, d) + Without(b, d)
  {
    if |a| > 0 {
      assert (a + b)[1..] == a[1..] + b;
      WithoutAppend(a[1..], b, d);
    } else {
      assert a + b == b;
    }
  }

  /** Filtering twice by id sets is filtering once by their union. */
  lemma {:induction false} WithoutTwice(es: seq<Entry>, x: set<EntryId>, y: set<EntryId>)
    ensures Without(Without(es, DropIds(x)), DropIds(y)) == Without(es, DropIds(x + y))
  {
    if |es| > 0 {
      WithoutTwice(es[1..], x, y);
      if es[0].id !in x && es[0].id !in y {
        WithoutAppend([es[0]], Without(es[1..], DropIds(x)), DropIds(y));
      }
    }
  }

  /** A filter that drops nothing is the identity. */
  lemma {:induction false} WithoutNothing(es: seq<Entry>, d: Drop)
    requires forall e :: e in es ==> !Dropped(e, d)
    ensures Without(es, d) == es
  {
    if |es| > 0 {
      WithoutNothing(es[1..], d);
    }
  }

  /** A filter splits a list into the kept and the dropped entries. */
  lemma {:induction false} WithoutOnlySplit(es: seq<Entry>, d: Drop)
    ensures multiset(es) == multiset(Without(es, d)) + multiset(Only(es, d))
  {
    if |es| > 0 {
      WithoutOnlySplit(es[1..], d);
      assert es == [es[0]] + es[1..];
    }
  }

  /** Two different entries with one id count twice. */
  lemma {:induction false} TwoEntriesCountTwo(es: seq<Entry>, e: Entry, f: Entry)
    requires e in es && f in es && e != f && f.id == e.id
    ensures CountId(es, e.id) >= 2
  {
    if es[0] == e {
      assert f in es[1..];
    } else if es[0] == f {
      assert e in es[1..];
    } else {
      TwoEntriesCountTwo(es[1..], e, f);
    }
  }

  /** An id counted at most once names at most one entry. */
  lemma CountOneUnique(es: seq<Entry>, e: Entry, f: Entry)
    requires CountId(es, e.id) <= 1
    requires e in es && f in es && f.id == e.id
    ensures e == f
  {
    if e != f {
      TwoEntriesCountTwo(es, e, f);
    }
  }

  /** Dropping two distinct ids drops as many entries as carry either of them. */
  lemma {:induction false} OnlyTwoLength(es: seq<Entry>, i1: EntryId, i2: EntryId)
    requires i1 != i2
    ensures |Only(es, DropIds({i1, i2}))| == CountId(es, i1) + CountId(es, i2)
  {
    if |es| > 0 {
      OnlyTwoLength(es[1..], i1, i2);
    }
  }
}

=== FILE: invariant.dfy ===
/** The invariant the engine actually keeps. It is weaker than a partition:
    a row may sit in several pairs, and in a pair and a solitary entry at once.
    What holds after every operation is that every stored row is referenced by
    at least one entry, that no solitary id occurs twice, and that every entry
    is well formed. */
module Invariant {
  import opened Types
  import opened EntryLists
  import opened Engine
  import opened EngineLaws

  /** Row ids are unique on each side, as the loader's `row-<index>` scheme guarantees. */
  predicate ValidStore(store: Store) {
    DistinctIds(store.sources) && DistinctIds(store.targets)
  }

  /** An entry as the application builds it: `mappingId` equals `id`, the id names the rows
      the entry holds, at least one side is present, and its rows come from the store. */
  predicate WellFormed(e: Entry, store: Store) {
    && e.mappingId == Some(e.id)
    && (e.source.Some? ==> e.source.value in store.sources)
    && (e.target.Some? ==> e.target.value in store.targets)
    && match e.id
       case SourceOnlyId(s) => e.source.Some? && e.source.value.id == s && e.target.None?
       case TargetOnlyId(t) => e.target.Some? && e.target.value.id == t && e.source.None?
       case PairId(s, t) => e.source.Some? && e.source.value.id == s && e.target.Some? && e.target.value.id == t
  }

  predicate Referenced(es: seq<Entry>, side: Side, r: Row) {
    exists e :: e in es && e.RowOn(side) == Some(r)
  }

  /** Every stored row appears in at least one entry. */
  ghost predicate Covered(es: seq<Entry>, store: Store) {
    forall side: Side, r :: r in store.RowsOf(side) ==> Referenced(es, side, r)
  }

  /** No solitary id (`source-<s>`, `target-<t>`) is carried by two entries. */
  ghost predicate SolitaryUnique(es: seq<Entry>) {
    forall id: EntryId :: id.IsSolitary() ==> CountId(es, id) <= 1
  }

  ghost predicate Inv(store: Store, es: seq<Entry>) {
    && ValidStore(store)
    && (forall e :: e in es ==> WellFormed(e, store))
    && SolitaryUnique(es)
    && Covered(es, store)
  }

  lemma RowsSameId(rows: seq<Row>, a: Row, b: Row)
    requires DistinctIds(rows) && a in rows && b in rows && a.id == b.id
    ensures a == b
  {
    var i :| 0 <= i < |rows| && rows[i] == a;
    var j :| 0 <= j < |rows| && rows[j] == b;
    assert i == j;
  }

  /** In a valid store two well-formed entries with the same id hold the same rows. */
  lemma SameIdSameRows(store: Store, e1: Entry, e2: Entry)
    requires ValidStore(store) && WellFormed(e1, store) && WellFormed(e2, store)
    requires e1.id == e2.id
    ensures e1.source == e2.source && e1.target == e2.target
  {
    if e1.source.Some? {
      RowsSameId(store.sources, e1.source.value, e2.source.value);
    }
    if e1.target.Some? {
      RowsSameId(store.targets, e1.target.value, e2.target.value);
    }
  }

  /** A well-formed solitary entry holds exactly the stored row its id names, on its own side only. */
  lemma SolitaryEntryRow(store: Store, e: Entry, side0: Side, rid: string, side: Side, r: Row)
    requires ValidStore(store) && WellFormed(e, store)
    requires e.id == SolitaryId(side0, rid)
    requires e.RowOn(side) == Some(r)
    ensures side == side0
    ensures Find(store.RowsOf(side0), rid) == Some(r)
  {
    FindUnique(store.RowsOf(side0), r);
  }

  lemma SolitaryWellFormed(store: Store, side: Side, r: Row)
    requires r in store.RowsOf(side)
    ensures WellFormed(Solitary(side, r), store)
  {
  }

  lemma PairOfWellFormed(store: Store, side: Side, a: Row, o: Row)
    requires a in store.RowsOf(side) && o in store.RowsOf(side.Other())
    ensures WellFormed(PairOf(side, a, o), store)
  {
  }

  /** Every entry of a list satisfying the invariant holds at least one row. */
  lemma EveryEntryHasASide(store: Store, es: seq<Entry>)
    requires Inv(store, es)
    ensures forall e :: e in es ==> e.source.Some? || e.target.Some?
  {
    forall e | e in es
      ensures e.source.Some? || e.target.Some?
    {
      assert WellFormed(e, store);
    }
  }

  lemma {:induction false} SolitaryAllCount(side: Side, rows: seq<Row>, id: EntryId)
    requires DistinctIds(rows)
    ensures CountId(SolitaryAll(side, rows), id) <= 1
  {
    if |rows| > 0 {
      SolitaryAllCount(side, rows[1..], id);
      var tail := SolitaryAll(side, rows[1..]);
      if id == SolitaryId(side, rows[0].id) {
        forall e | e in tail
          ensures e.id != id
        {
          var k :| 0 <= k < |tail| && tail[k] == e;
          assert rows[1..][k] == rows[k + 1];
        }
      }
    }
  }

  lemma {:induction false} SolitaryAllOtherSide(side: Side, rows: seq<Row>, id: EntryId)
    requires forall rid :: id != SolitaryId(side, rid)
    ensures CountId(SolitaryAll(side, rows), id) == 0
  {
    var es := SolitaryAll(side, rows);
    forall e | e in es
      ensures e.id != id
    {
      var k :| 0 <= k < |es| && es[k] == e;
    }
  }

  /** Initialize establishes the invariant on any store with unique row ids per side. */
  lemma InitializeEstablishesInv(store: Store)
    requires ValidStore(store)
    ensures Inv(store, Initialize(store.sources, store.targets))
  {
    var ss := SolitaryAll(Source, store.sources);
    var ts := SolitaryAll(Target, store.targets);
    var es := Initialize(store.sources, store.targets);
    assert es == ss + ts;
    forall e | e in es
      ensures WellFormed(e, store)
    {
      var k :| 0 <= k < |es| && es[k] == e;
      if k < |ss| {
        SolitaryWellFormed(store, Source, store.sources[k]);
      } else {
        SolitaryWellFormed(store, Target, store.targets[k - |ss|]);
      }
    }
    forall id: EntryId | id.IsSolitary()
      ensures CountId(es, id) <= 1
    {
      CountAppend(ss, ts, id);
      if id.SourceOnlyId? {
        SolitaryAllCount(Source, store.sources, id);
        SolitaryAllOtherSide(Target, store.targets, id);
      } else {
        SolitaryAllOtherSide(Source, store.sources, id);
        SolitaryAllCount(Target, store.targets, id);
      }
    }
    forall side: Side, r | r in store.RowsOf(side)
      ensures Referenced(es, side, r)
    {
      var k :| 0 <= k < |store.RowsOf(side)| && store.RowsOf(side)[k] == r;
      if side == Source {
        assert es[k].RowOn(side) == Some(r);
      } else {
        assert es[|ss| + k].RowOn(side) == Some(r);
      }
    }
  }

  /** The solitary ids of a list that ends in pairs are counted in its prefix alone. */
  lemma CountBeforePairs(kept: seq<Entry>, pairs: seq<Entry>, id: EntryId)
    requires id.IsSolitary()
    requires forall e :: e in pairs ==> e.id.PairId?
    ensures CountId(kept + pairs, id) == CountId(kept, id)
  {
    CountAppend(kept, pairs, id);
  }

  /** The list a Map with a resolving anchor `a` produces, in its filter-then-append form. */
  function MapResult(store: Store, es: seq<Entry>, side: Side, anchorId: string, a: Row, selected: seq<string>): seq<Entry> {
    Without(es, DropIds(Removed(store, side, anchorId, selected))) + NewPairs(store.RowsOf(side.Other()), side, a, selected)
  }

  lemma MapResultWellFormed(store: Store, es: seq<Entry>, side: Side, anchorId: string, a: Row, selected: seq<string>)
    requires Inv(store, es)
    requires Find(store.RowsOf(side), anchorId) == Some(a)
    ensures forall e :: e in MapResult(store, es, side, anchorId, a, selected) ==> WellFormed(e, store)
  {
    var others := store.RowsOf(side.Other());
    var kept := Without(es, DropIds(Removed(store, side, anchorId, selected)));
    NewPairsMembers(others, side, a, selected);
    forall e | e in MapResult(store, es, side, anchorId, a, selected)
      ensures WellFormed(e, store)
    {
      if e !in kept {
        var o :| o in others && e == PairOf(side, a, o);
        PairOfWellFormed(store, side, a, o);
      }
    }
  }

  lemma MapResultUnique(store: Store, es: seq<Entry>, side: Side, anchorId: string, a: Row, selected: seq<string>)
    requires Inv(store, es)
    ensures SolitaryUnique(MapResult(store, es, side, anchorId, a, selected))
  {
    var others := store.RowsOf(side.Other());
    var removed := Removed(store, side, anchorId, selected);
    var kept := Without(es, DropIds(removed));
    var pairs := NewPairs(others, side, a, selected);
    NewPairsMembers(others, side, a, selected);
    forall e | e in pairs
      ensures e.id.PairId?
    {
      var o :| o in others && e == PairOf(side, a, o);
    }
    forall id: EntryId | id.IsSolitary()
      ensures CountId(kept + pairs, id) <= 1
    {
      CountBeforePairs(kept, pairs, id);
      CountWithout(es, DropIds(removed), id);
    }
  }

  /** A row whose entry a Map removed is held by one of the new pairs. */
  lemma RemovedRowInNewPair(store: Store, side: Side, anchorId: string, a: Row, selected: seq<string>,
                            e: Entry, sd: Side, rr: Row)
    requires ValidStore(store) && WellFormed(e, store)
    requires Find(store.RowsOf(side), anchorId) == Some(a)
    requires exists x :: x in selected && Find(store.RowsOf(side.Other()), x).Some?
    requires e.id in Removed(store, side, anchorId, selected)
    requires e.RowOn(sd) == Some(rr)
    ensures Referenced(NewPairs(store.RowsOf(side.Other()), side, a, selected), sd, rr)
  {
    var others := store.RowsOf(side.Other());
    var pairs := NewPairs(others, side, a, selected);
    if e.id == SolitaryId(side, anchorId) {
      SolitaryEntryRow(store, e, side, anchorId, sd, rr);
      var x0 :| x0 in selected && Find(others, x0).Some?;
      var p := PairOf(side, a, Find(others, x0).value);
      assert p in pairs by {
        NewPairsMembers(others, side, a, selected);
      }
      assert p.RowOn(sd) == Some(rr);
    } else {
      assert exists x :: x in selected && Find(others, x).Some? && e.id == SolitaryId(side.Other(), x) by {
        ResolvedIdsMembers(others, side, selected);
      }
      var x :| x in selected && Find(others, x).Some? && e.id == SolitaryId(side.Other(), x);
      SolitaryEntryRow(store, e, side.Other(), x, sd, rr);
      var p := PairOf(side, a, rr);
      assert p in pairs by {
        NewPairsMembers(others, side, a, selected);
      }
      assert p.RowOn(sd) == Some(rr);
    }
  }

  lemma MapResultCovered(store: Store, es: seq<Entry>, side: Side, anchorId: string, a: Row, selected: seq<string>)
    requires Inv(store, es)
    requires Find(store.RowsOf(side), anchorId) == Some(a)
    requires exists x :: x in selected && Find(store.RowsOf(side.Other()), x).Some?
    ensures Covered(MapResult(store, es, side, anchorId, a, selected), store)
  {
    var removed := Removed(store, side, anchorId, selected);
    var kept := Without(es, DropIds(removed));
    var pairs := NewPairs(store.RowsOf(side.Other()), side, a, selected);
    var r := MapResult(store, es, side, anchorId, a, selected);
    assert r == kept + pairs;
    forall sd: Side, rr | rr in store.RowsOf(sd)
      ensures Referenced(r, sd, rr)
    {
      var e :| e in es && e.RowOn(sd) == Some(rr);
      if e.id in removed {
        RemovedRowInNewPair(store, side, anchorId, a, selected, e, sd, rr);
        var p :| p in pairs && p.RowOn(sd) == Some(rr);
        assert p in r;
      } else {
        assert e in kept;
      }
    }
  }

  /** Map keeps the invariant whenever at least one selected id names a row of the other side,
      which the mapping dialog guarantees (see Modal.ConfirmKeepsInv). */
  lemma MapPreservesInv(store: Store, es: seq<Entry>, fromSource: bool, anchor: Option<string>, selected: seq<string>)
    requires Inv(store, es)
    requires exists x :: x in selected && Find(store.RowsOf(AnchorSide(fromSource).Other()), x).Some?
    ensures Inv(store, Map(es, store, fromSource, anchor, selected))
  {
    MapSpec(es, store, fromSource, anchor, selected);
    var side := AnchorSide(fromSource);
    if anchor.Some? && anchor.value != "" && Find(store.RowsOf(side), anchor.value).Some? {
      var a := Find(store.RowsOf(side), anchor.value).value;
      assert Map(es, store, fromSource, anchor, selected) == MapResult(store, es, side, anchor.value, a, selected);
      MapResultWellFormed(store, es, side, anchor.value, a, selected);
      MapResultUnique(store, es, side, anchor.value, a, selected);
      MapResultCovered(store, es, side, anchor.value, a, selected);
    }
  }

  /** Restoring a solitary entry only when its id is absent keeps solitary ids unique. */
  lemma RestoreKeepsUnique(acc: seq<Entry>, m: Entry, side: Side)
    requires SolitaryUnique(acc)
    ensures SolitaryUnique(Restore(acc, m, side))
  {
    var r := Restore(acc, m, side);
    if r != acc {
      var row := m.RowOn(side).value;
      forall id: EntryId | id.IsSolitary()
        ensures CountId(r, id) <= 1
      {
        CountAppend(acc, [Solitary(side, row)], id);
        if id == SolitaryId(side, row.id) {
          assert !HasId(acc, id);
        }
      }
    }
  }

  /** Unmapping a solitary entry's id drops that entry and appends a fresh solitary entry for
      the same stored row: the row stays, and only its remarks are gone. */
  lemma UnmapSolitary(store: Store, es: seq<Entry>, side: Side, rid: string)
    requires Inv(store, es)
    requires HasId(es, SolitaryId(side, rid))
    ensures Find(store.RowsOf(side), rid).Some?
    ensures var key := SolitaryId(side, rid);
            Unmap(es, key) == Without(es, DropMapping(key)) + [Solitary(side, Find(store.RowsOf(side), rid).value)]
  {
    var key := SolitaryId(side, rid);
    var kept := Without(es, DropMapping(key));
    assert FirstWithMapping(es, key).Some? by {
      var e :| e in es && e.id == key;
      assert WellFormed(e, store);
    }
    var m := FirstWithMapping(es, key).value;
    assert m.id == key && WellFormed(m, store) by {
      assert m in es;
    }
    var row := m.RowOn(side).value;
    SolitaryEntryRow(store, m, side, rid, side, row);
    assert !HasId(kept, key) by {
      forall x | x in kept
        ensures x.id != key
      {
        assert WellFormed(x, store);
      }
    }
    assert Missing(kept, m, side) == [Solitary(side, row)];
    assert Missing(kept, m, side.Other()) == [];
    assert Unmap(es, key) == kept + Missing(kept, m, Source) + Missing(kept, m, Target) by {
      UnmapSpec(es, key);
    }
  }

  /** Unmap keeps the invariant: the rows of the dropped entries are all the rows of the first
      one, and each of them is left with a solitary entry if it had none. */
  lemma UnmapPreservesInv(store: Store, es: seq<Entry>, key: EntryId)
    requires Inv(store, es)
    ensures Inv(store, Unmap(es, key))
  {
    UnmapSpec(es, key);
    var f := FirstWithMapping(es, key);
    if f.Some? {
      var m := f.value;
      var kept := Without(es, DropMapping(key));
      var s := Restore(kept, m, Source);
      var r := Restore(s, m, Target);
      assert r == Unmap(es, key);
      assert WellFormed(m, store);
      forall e | e in r
        ensures WellFormed(e, store)
      {
        if e !in kept {
          assert e in r[|kept|..] by {
            assert r == r[..|kept|] + r[|kept|..];
          }
          assert RestoredFrom(e, m);
          if m.source.Some? && e == Solitary(Source, m.source.value) {
            SolitaryWellFormed(store, Source, m.source.value);
          } else {
            SolitaryWellFormed(store, Target, m.target.value);
          }
        }
      }
      forall id: EntryId | id.IsSolitary()
        ensures CountId(kept, id) <= 1
      {
        CountWithout(es, DropMapping(key), id);
      }
      RestoreKeepsUnique(kept, m, Source);
      RestoreKeepsUnique(s, m, Target);
      forall sd: Side, rr | rr in store.RowsOf(sd)
        ensures Referenced(r, sd, rr)
      {
        var e :| e in es && e.RowOn(sd) == Some(rr);
        if e.mappingId == Some(key) {
          SameIdSameRows(store, e, m);
          var g :| g in r && g.id == SolitaryId(sd, rr.id);
          SolitaryEntryRow(store, g, sd, rr.id, sd, g.RowOn(sd).value);
          FindUnique(store.RowsOf(sd), rr);
          assert g.RowOn(sd) == Some(rr);
        } else {
          assert e in r;
        }
      }
    }
  }

  lemma {:induction false} CountSameIds(a: seq<Entry>, b: seq<Entry>, id: EntryId)
    requires |a| == |b|
    requires forall i :: 0 <= i < |a| ==> a[i].id == b[i].id
    ensures CountId(a, id) == CountId(b, id)
  {
    if |a| > 0 {
      CountSameIds(a[1..], b[1..], id);
    }
  }

  /** Editing remarks keeps the invariant: it touches neither ids nor rows. */
  lemma UpdateRemarksPreservesInv(store: Store, es: seq<Entry>, key: EntryId, text: string)
    requires Inv(store, es)
    ensures Inv(store, UpdateRemarks(es, key, text))
  {
    var r := UpdateRemarks(es, key, text);
    forall e | e in r
      ensures WellFormed(e, store)
    {
      var k :| 0 <= k < |r| && r[k] == e;
      assert WellFormed(es[k], store);
    }
    forall id: EntryId | id.IsSolitary()
      ensures CountId(r, id) <= 1
    {
      CountSameIds(r, es, id);
    }
    forall sd: Side, rr | rr in store.RowsOf(sd)
      ensures Referenced(r, sd, rr)
    {
      var e :| e in es && e.RowOn(sd) == Some(rr);
      var k :| 0 <= k < |es| && es[k] == e;
      assert r[k] in r && r[k].RowOn(sd) == Some(rr);
    }
  }
}

=== FILE: modal.dfy ===
/** The mapping dialog of src/components/MappingModal.tsx: which side it offers rows from,
    the gating of its confirm button, the reset on confirm and on close, and the Map call a
    confirm makes in src/App.tsx. */
module Modal {
  import opened Types
  import opened EntryLists
  import opened Engine
  import opened Invariant
  import opened Selector

  /** The dialog's own state: the search text and the selected row ids in selection order
      (`Array.from` of the grid's selection set). */
  datatype ModalState = ModalState(search: string, selected: seq<string>)

  /** Both `setSelectedRows` with an empty set and `setSearchTerm('')`. */
  const Fresh: ModalState := ModalState("", [])

  /** `displayData`: the rows of the side opposite the anchor. Rows already paired are offered too. */
  function Candidates(store: Store, fromSource: bool): seq<Row> {
    if fromSource then store.targets else store.sources
  }

  /** The dialog offers exactly the rows on the side the anchor is mapped to. */
  lemma CandidatesAreOtherSide(store: Store, fromSource: bool)
    ensures Candidates(store, fromSource) == store.RowsOf(AnchorSide(fromSource).Other())
  {
  }

  /** The rows the grid shows for the current search. */
  function Shown(store: Store, fromSource: bool, st: ModalState): seq<Row> {
    Search(Candidates(store, fromSource), st.search)
  }

  /** The confirm button's `disabled` condition, negated. */
  predicate ConfirmEnabled(st: ModalState) {
    |st.selected| != 0
  }

  /** The result of a click on confirm: the ids handed to the engine, if any, and the next state. */
  datatype Confirmed = Confirmed(call: Option<seq<string>>, next: ModalState)

  /** `handleConfirm` behind the gated button: a disabled button does nothing. */
  function Confirm(st: ModalState): Confirmed {
    if ConfirmEnabled(st) then Confirmed(Some(st.selected), Fresh) else Confirmed(None, st)
  }

  /** `handleClose`: nothing is handed to the engine and the dialog starts over. */
  function Close(st: ModalState): ModalState {
    Fresh
  }

  /** A click on confirm hands the engine the selection exactly when one exists, and then the
      dialog is reset; closing always resets. Either way the next dialog shows every candidate. */
  lemma ConfirmGating(st: ModalState, store: Store, fromSource: bool)
    ensures Confirm(st).call.Some? <==> |st.selected| > 0
    ensures Confirm(st).call.Some? ==> Confirm(st).call.value == st.selected && Confirm(st).next == Fresh
    ensures Confirm(st).call.None? ==> Confirm(st).next == st
    ensures Close(st).search == "" && Close(st).selected == []
    ensures Shown(store, fromSource, Close(st)) == Candidates(store, fromSource)
  {
  }

  /** Every selected id names one of the offered rows: the grid selects rows by their id. */
  predicate SelectionFrom(selected: seq<string>, rows: seq<Row>) {
    forall x :: x in selected ==> exists r :: r in rows && r.id == x
  }

  /** `handleMappingConfirm` as reached from the dialog: the engine maps only when confirm was enabled. */
  function ConfirmAndMap(es: seq<Entry>, store: Store, fromSource: bool, anchor: Option<string>, st: ModalState): seq<Entry> {
    match Confirm(st).call
    case None => es
    case Some(ids) => Map(es, store, fromSource, anchor, ids)
  }

  /** The dialog's gating is what keeps the engine's invariant: an empty selection reaches no
      Map at all, and a non-empty selection drawn from the offered rows triggers a Map that pairs
      at least one row, so no row is left without an entry. */
  lemma ConfirmKeepsInv(store: Store, es: seq<Entry>, fromSource: bool, anchor: Option<string>, st: ModalState)
    requires Inv(store, es)
    requires SelectionFrom(st.selected, Candidates(store, fromSource))
    ensures Inv(store, ConfirmAndMap(es, store, fromSource, anchor, st))
    ensures |st.selected| == 0 ==> ConfirmAndMap(es, store, fromSource, anchor, st) == es
    ensures |st.selected| > 0 ==> ConfirmAndMap(es, store, fromSource, anchor, st) == Map(es, store, fromSource, anchor, st.selected)
  {
    if ConfirmEnabled(st) {
      var x := st.selected[0];
      assert x in st.selected;
      var r :| r in Candidates(store, fromSource) && r.id == x;
      CandidatesAreOtherSide(store, fromSource);
      assert Find(store.RowsOf(AnchorSide(fromSource).Other()), x).Some?;
      MapPreservesInv(store, es, fromSource, anchor, st.selected);
    }
  }

  /** Every row the grid shows can be selected: the shown rows are candidates, so a selection
      taken from them is a selection from the candidates. */
  lemma ShownSelectionIsFromCandidates(store: Store, fromSource: bool, st: ModalState, selected: seq<string>)
    requires SelectionFrom(selected, Shown(store, fromSource, st))
    ensures SelectionFrom(selected, Candidates(store, fromSource))
  {
    SearchSpec(Candidates(store, fromSource), st.search);
  }
}

=== FILE: projector.dfy ===
/** The read-only views of src/components/MappedPanel.tsx: the flat rows handed to the
    CSV download (`handleDownload`), the rows shown in the grid (`transformedData`),
    and the id the grid's unmap and remarks callbacks address an entry by. */
module Projector {
  import opened Types
  import opened EntryLists
  import opened Engine

  /** A flat row: its fields in insertion order, as a JavaScript object keeps string keys. */
  type Fields = seq<(string, Value)>

  /** `Object.keys`: the field names in order. */
  function Keys(f: Fields): (ks: seq<string>)
    ensures |ks| == |f|
  {
    if |f| == 0 then [] else [f[0].0] + Keys(f[1..])
  }

  /** `obj[k]`: the value of the first field named `k`. */
  function Field(f: Fields, k: string): (v: Option<Value>)
    ensures v.None? <==> k !in Keys(f)
    ensures v.Some? ==> (k, v.value) in f
  {
    if |f| == 0 then None
    else if f[0].0 == k then Some(f[0].1)
    else Field(f[1..], k)
  }

  /** `obj[k] = v`: an existing field keeps its place and takes the new value; a new key goes last. */
  function Put(f: Fields, k: string, v: Value): Fields {
    if |f| == 0 then [(k, v)]
    else if f[0].0 == k then [(k, v)] + f[1..]
    else [f[0]] + Put(f[1..], k, v)
  }

  /** Put against an independent reading of the object: the key then holds the new value
      and every other key keeps its value. */
  lemma {:induction false} PutLaws(f: Fields, k: string, v: Value)
    ensures Field(Put(f, k, v), k) == Some(v)
    ensures forall k' :: k' != k ==> Field(Put(f, k, v), k') == Field(f, k')
  {
    if |f| > 0 && f[0].0 != k {
      var g := Put(f, k, v);
      PutLaws(f[1..], k, v);
      assert g[0] == f[0] && g[1..] == Put(f[1..], k, v);
    } else if |f| > 0 {
      var g := Put(f, k, v);
      assert g[0] == (k, v) && g[1..] == f[1..];
    }
  }

  /** Put grows the key list only by a key that was absent, and then at the end. */
  lemma {:induction false} PutKeys(f: Fields, k: string, v: Value)
    ensures Keys(Put(f, k, v)) == if k in Keys(f) then Keys(f) else Keys(f) + [k]
  {
    if |f| > 0 {
      var g := Put(f, k, v);
      assert Keys(f) == [f[0].0] + Keys(f[1..]);
      assert Keys(g) == [g[0].0] + Keys(g[1..]);
      if f[0].0 != k {
        PutKeys(f[1..], k, v);
        assert g[1..] == Put(f[1..], k, v);
        assert k in Keys(f) <==> k in Keys(f[1..]);
      } else {
        assert g[1..] == f[1..];
      }
    }
  }

  /** The exported value of column `col` for one side: `row[col] || ''`, and '' for a missing side. */
  function Cell(row: Option<Row>, col: string): Value {
    match row
    case None => Str("")
    case Some(r) =>
      match Lookup(r, col)
      case None => Str("")
      case Some(v) => if Falsy(v) then Str("") else v
  }

  /** The `forEach` over one side's columns writing `<prefix><col>`. */
  function PutSide(f: Fields, prefix: string, row: Option<Row>, cols: seq<string>): Fields
    decreases |cols|
  {
    if |cols| == 0 then f
    else PutSide(Put(f, prefix + cols[0], Cell(row, cols[0])), prefix, row, cols[1..])
  }

  /** `<prefix><col>` for every column, in column order. */
  function Prefixed(prefix: string, cols: seq<string>): (ks: seq<string>)
    ensures |ks| == |cols|
    ensures forall i :: 0 <= i < |cols| ==> ks[i] == prefix + cols[i]
  {
    if |cols| == 0 then [] else [prefix + cols[0]] + Prefixed(prefix, cols[1..])
  }

  /** The columns of the exported file, in order. */
  function Header(sourceCols: seq<string>, targetCols: seq<string>): seq<string> {
    ["id"] + Prefixed("source_", sourceCols) + Prefixed("target_", targetCols) + ["remarks"]
  }

  /** One exported row: `id`, every `source_<col>`, every `target_<col>`, then `remarks`. */
  function ExportRow(e: Entry, sourceCols: seq<string>, targetCols: seq<string>): Fields {
    var withId := [("id", Str(IdText(e.id)))];
    var withSource := PutSide(withId, "source_", e.source, sourceCols);
    var withTarget := PutSide(withSource, "target_", e.target, targetCols);
    Put(withTarget, "remarks", Str(e.remarks.GetOr("")))
  }

  /** `data.map(...)` in `handleDownload`: one exported row per entry, in entry order. */
  function Export(es: seq<Entry>, sourceCols: seq<string>, targetCols: seq<string>): (rows: seq<Fields>)
    ensures |rows| == |es|
    ensures forall i :: 0 <= i < |es| ==> rows[i] == ExportRow(es[i], sourceCols, targetCols)
  {
    seq(|es|, i requires 0 <= i < |es| => ExportRow(es[i], sourceCols, targetCols))
  }

  predicate NoDuplicates(xs: seq<string>) {
    forall i, j :: 0 <= i < j < |xs| ==> xs[i] != xs[j]
  }

  /** After the side's loop, every one of its columns holds that side's cell. */
  lemma {:induction false} PutSideWrites(f: Fields, prefix: string, row: Option<Row>, cols: seq<string>)
    ensures forall c :: c in cols ==> Field(PutSide(f, prefix, row, cols), prefix + c) == Some(Cell(row, c))
    ensures forall k :: (forall c :: c in cols ==> k != prefix + c) ==> Field(PutSide(f, prefix, row, cols), k) == Field(f, k)
    decreases |cols|
  {
    if |cols| > 0 {
      var c0 := cols[0];
      var g := Put(f, prefix + c0, Cell(row, c0));
      PutLaws(f, prefix + c0, Cell(row, c0));
      PutSideWrites(g, prefix, row, cols[1..]);
      assert forall c :: c in cols ==> c == c0 || c in cols[1..];
      forall c | c in cols
        ensures Field(PutSide(f, prefix, row, cols), prefix + c) == Some(Cell(row, c))
      {
        if c !in cols[1..] {
          forall c' | c' in cols[1..]
            ensures prefix + c != prefix + c'
          {
            PrefixInjective(prefix, c, c');
          }
        }
      }
    }
  }

  /** Different columns give different keys under one prefix. */
  lemma PrefixInjective(prefix: string, c: string, d: string)
    requires c != d
    ensures prefix + c != prefix + d
  {
    assert (prefix + c)[|prefix|..] == c && (prefix + d)[|prefix|..] == d;
  }

  /** The tail of a list without duplicates has none, and does not hold the head. */
  lemma NoDuplicatesTail(cols: seq<string>)
    requires |cols| > 0 && NoDuplicates(cols)
    ensures NoDuplicates(cols[1..]) && cols[0] !in cols[1..]
  {
    var rest := cols[1..];
    forall i, j | 0 <= i < j < |rest|
      ensures rest[i] != rest[j]
    {
      assert rest[i] == cols[i + 1] && rest[j] == cols[j + 1];
    }
    forall j | 0 <= j < |rest|
      ensures rest[j] != cols[0]
    {
      assert rest[j] == cols[j + 1];
    }
  }

  /** After writing key `prefix + c0`, the keys of the other columns are still absent. */
  lemma StillFresh(f: Fields, g: Fields, prefix: string, c0: string, rest: seq<string>)
    requires Keys(g) == Keys(f) + [prefix + c0]
    requires c0 !in rest
    requires forall c :: c in rest ==> prefix + c !in Keys(f)
    ensures forall c :: c in rest ==> prefix + c !in Keys(g)
  {
    forall c | c in rest
      ensures prefix + c !in Keys(g)
    {
      PrefixInjective(prefix, c, c0);
    }
  }

  /** With distinct columns whose keys are new, the side's loop appends exactly its keys, in order. */
  lemma {:induction false} PutSideKeys(f: Fields, prefix: string, row: Option<Row>, cols: seq<string>)
    requires NoDuplicates(cols)
    requires forall c :: c in cols ==> prefix + c !in Keys(f)
    ensures Keys(PutSide(f, prefix, row, cols)) == Keys(f) + Prefixed(prefix, cols)
    decreases |cols|
  {
    if |cols| > 0 {
      var c0 := cols[0];
      var rest := cols[1..];
      var g := Put(f, prefix + c0, Cell(row, c0));
      assert Keys(g) == Keys(f) + [prefix + c0] by {
        assert c0 in cols;
        PutKeys(f, prefix + c0, Cell(row, c0));
      }
      assert NoDuplicates(rest) && forall c :: c in rest ==> prefix + c !in Keys(g) by {
        NoDuplicatesTail(cols);
        assert forall c :: c in rest ==> c in cols;
        StillFresh(f, g, prefix, c0, rest);
      }
      assert PutSide(f, prefix, row, cols) == PutSide(g, prefix, row, rest);
      PutSideKeys(g, prefix, row, rest);
      assert Prefixed(prefix, cols) == [prefix + c0] + Prefixed(prefix, rest);
      ConcatAssoc(Keys(f), [prefix + c0], Prefixed(prefix, rest));
    }
  }

  /** The side's loop leaves a leading field alone when no column key equals its name. */
  lemma {:induction false} PutSidePrefix(x: (string, Value), f: Fields, prefix: string, row: Option<Row>, cols: seq<string>)
    requires forall c :: c in cols ==> prefix + c != x.0
    ensures PutSide([x] + f, prefix, row, cols) == [x] + PutSide(f, prefix, row, cols)
    decreases |cols|
  {
    if |cols| > 0 {
      var c0 := cols[0];
      assert ([x] + f)[1..] == f;
      assert Put([x] + f, prefix + c0, Cell(row, c0)) == [x] + Put(f, prefix + c0, Cell(row, c0));
      PutSidePrefix(x, Put(f, prefix + c0, Cell(row, c0)), prefix, row, cols[1..]);
    }
  }

  /** Writing a key no field carries appends it. */
  lemma {:induction false} PutNew(f: Fields, k: string, v: Value)
    requires k !in Keys(f)
    ensures Put(f, k, v) == f + [(k, v)]
  {
    if |f| > 0 {
      assert Keys(f) == [f[0].0] + Keys(f[1..]);
      PutNew(f[1..], k, v);
      assert [f[0]] + (f[1..] + [(k, v)]) == f + [(k, v)];
    }
  }

  /** Keys built on different prefixes never meet: `source_`, `target_`, `id` and `remarks`
      begin with different letters. */
  lemma KeysApart(c: string, d: string)
    ensures "source_" + c != "target_" + d
    ensures "source_" + c != "id" && "target_" + d != "id"
    ensures "source_" + c != "remarks" && "target_" + d != "remarks"
  {
    assert ("source_" + c)[0] == 's' && ("target_" + d)[0] == 't';
  }

  /** Appending a field appends its key. */
  lemma {:induction false} KeysSnoc(f: Fields, x: (string, Value))
    ensures Keys(f + [x]) == Keys(f) + [x.0]
  {
    if |f| > 0 {
      assert (f + [x])[1..] == f[1..] + [x];
      KeysSnoc(f[1..], x);
      ConcatAssoc([f[0].0], Keys(f[1..]), [x.0]);
    } else {
      assert f + [x] == [x];
    }
  }

  /** The keys built on one prefix all begin with its first letter. */
  lemma PrefixedHead(prefix: string, cols: seq<string>)
    requires |prefix| > 0
    ensures forall k :: k in Prefixed(prefix, cols) ==> |k| > 0 && k[0] == prefix[0]
  {
  }

  /** Every exported row carries the file's header as its keys, in order, when the column
      names of each side are distinct. */
  lemma ExportKeys(e: Entry, sourceCols: seq<string>, targetCols: seq<string>)
    requires NoDuplicates(sourceCols) && NoDuplicates(targetCols)
    ensures Keys(ExportRow(e, sourceCols, targetCols)) == Header(sourceCols, targetCols)
  {
    var withId := [("id", Str(IdText(e.id)))];
    var withSource := PutSide(withId, "source_", e.source, sourceCols);
    var withTarget := PutSide(withSource, "target_", e.target, targetCols);
    var sourceKeys, targetKeys := Prefixed("source_", sourceCols), Prefixed("target_", targetCols);
    SourceColumnKeys(withId, e.source, sourceCols);
    assert forall k :: k in Keys(withSource) ==> |k| > 0 && k[0] != 't' by {
      PrefixedHead("source_", sourceCols);
      assert "id"[0] == 'i';
    }
    TargetColumnKeys(withSource, e.target, targetCols);
    RemarksNotAColumn(sourceCols, targetCols);
    PutNew(withTarget, "remarks", Str(e.remarks.GetOr("")));
    KeysSnoc(withTarget, ("remarks", Str(e.remarks.GetOr(""))));
  }

  /** No column key is `remarks`: column keys begin with `s` or `t`. */
  lemma RemarksNotAColumn(sourceCols: seq<string>, targetCols: seq<string>)
    ensures "remarks" !in ["id"] + Prefixed("source_", sourceCols) + Prefixed("target_", targetCols)
  {
    PrefixedHead("source_", sourceCols);
    PrefixedHead("target_", targetCols);
    assert "remarks"[0] == 'r';
  }

  /** The source loop, run on the row holding only `id`, appends the source keys after it. */
  lemma SourceColumnKeys(withId: Fields, row: Option<Row>, sourceCols: seq<string>)
    requires Keys(withId) == ["id"]
    requires NoDuplicates(sourceCols)
    ensures Keys(PutSide(withId, "source_", row, sourceCols)) == ["id"] + Prefixed("source_", sourceCols)
  {
    forall c | c in sourceCols
      ensures "source_" + c !in Keys(withId)
    {
      assert ("source_" + c)[0] == 's';
    }
    PutSideKeys(withId, "source_", row, sourceCols);
  }

  /** The target loop, run on fields none of whose keys begins with `t`, appends the target keys. */
  lemma TargetColumnKeys(f: Fields, row: Option<Row>, targetCols: seq<string>)
    requires forall k :: k in Keys(f) ==> |k| > 0 && k[0] != 't'
    requires NoDuplicates(targetCols)
    ensures Keys(PutSide(f, "target_", row, targetCols)) == Keys(f) + Prefixed("target_", targetCols)
  {
    forall c | c in targetCols
      ensures "target_" + c !in Keys(f)
    {
      assert ("target_" + c)[0] == 't';
    }
    PutSideKeys(f, "target_", row, targetCols);
  }

  /** The value of every exported field: the entry id's text, each column's cell, and the
      remarks or ''. */
  lemma ExportFields(e: Entry, sourceCols: seq<string>, targetCols: seq<string>)
    ensures var row := ExportRow(e, sourceCols, targetCols);
            && Field(row, "id") == Some(Str(IdText(e.id)))
            && (forall c :: c in sourceCols ==> Field(row, "source_" + c) == Some(Cell(e.source, c)))
            && (forall c :: c in targetCols ==> Field(row, "target_" + c) == Some(Cell(e.target, c)))
            && Field(row, "remarks") == Some(Str(e.remarks.GetOr("")))
  {
    var withId := [("id", Str(IdText(e.id)))];
    var withSource := PutSide(withId, "source_", e.source, sourceCols);
    var withTarget := PutSide(withSource, "target_", e.target, targetCols);
    var row := ExportRow(e, sourceCols, targetCols);
    PutSideWrites(withId, "source_", e.source, sourceCols);
    PutSideWrites(withSource, "target_", e.target, targetCols);
    PutLaws(withTarget, "remarks", Str(e.remarks.GetOr("")));
    forall c | c in sourceCols
      ensures Field(withTarget, "source_" + c) == Some(Cell(e.source, c))
    {
      forall d | d in targetCols
        ensures "source_" + c != "target_" + d
      {
        KeysApart(c, d);
      }
      KeysApart(c, "");
    }
    forall c | c in sourceCols
      ensures "id" != "source_" + c
    {
      KeysApart(c, "");
    }
    forall c | c in targetCols
      ensures "id" != "target_" + c
    {
      KeysApart("", c);
    }
    forall c | c in targetCols + sourceCols
      ensures "remarks" != "target_" + c && "remarks" != "source_" + c
    {
      KeysApart(c, c);
    }
    assert Field(withId, "id") == Some(Str(IdText(e.id)));
  }

  /** The cell rule, for column `c` of `side` in one exported row: a side the entry lacks
      exports ''; a present side exports its value, unless that value is missing, empty or zero,
      which exports ''. So no exported cell is falsy except ''. */
  lemma ExportCell(e: Entry, sourceCols: seq<string>, targetCols: seq<string>, side: Side, c: string)
    requires c in (if side == Source then sourceCols else targetCols)
    ensures var f := Field(ExportRow(e, sourceCols, targetCols), (if side == Source then "source_" else "target_") + c);
            && f.Some?
            && (e.RowOn(side).None? ==> f == Some(Str("")))
            && (e.RowOn(side).Some? ==>
                  var v := Lookup(e.RowOn(side).value, c);
                  f == Some(if v.Some? && !Falsy(v.value) then v.value else Str("")))
            && (Falsy(f.value) ==> f == Some(Str("")))
  {
    ExportFields(e, sourceCols, targetCols);
    if side == Source {
      assert Field(ExportRow(e, sourceCols, targetCols), "source_" + c) == Some(Cell(e.source, c));
    } else {
      assert Field(ExportRow(e, sourceCols, targetCols), "target_" + c) == Some(Cell(e.target, c));
    }
  }

  /** A solitary source entry exports '' in every target column and, with no remarks yet, '' as remarks. */
  lemma ExportSolitarySource(r: Row, sourceCols: seq<string>, targetCols: seq<string>)
    ensures var row := ExportRow(Solitary(Source, r), sourceCols, targetCols);
            && (forall c :: c in targetCols ==> Field(row, "target_" + c) == Some(Str("")))
            && Field(row, "remarks") == Some(Str(""))
            && Field(row, "id") == Some(Str("source-" + r.id))
  {
    ExportFields(Solitary(Source, r), sourceCols, targetCols);
  }

  /** One grid row of `transformedData`: the entry's id, its remarks or '', its `mappingId`,
      and the same side cells the export writes. */
  datatype DisplayRow = DisplayRow(id: EntryId, remarks: string, mappingId: Option<EntryId>, cells: Fields)

  function DisplayOf(e: Entry, sourceCols: seq<string>, targetCols: seq<string>): DisplayRow {
    DisplayRow(e.id, e.remarks.GetOr(""), e.mappingId,
               PutSide(PutSide([], "source_", e.source, sourceCols), "target_", e.target, targetCols))
  }

  /** `transformedData`: one grid row per entry, in entry order. */
  function Display(es: seq<Entry>, sourceCols: seq<string>, targetCols: seq<string>): (rows: seq<DisplayRow>)
    ensures |rows| == |es|
    ensures forall i :: 0 <= i < |es| ==> rows[i] == DisplayOf(es[i], sourceCols, targetCols)
  {
    seq(|es|, i requires 0 <= i < |es| => DisplayOf(es[i], sourceCols, targetCols))
  }

  /** The grid and the download agree: an exported row is the grid row's id, its cells and its
      remarks, and the grid row adds only the mapping id. */
  lemma DisplayAgreesWithExport(e: Entry, sourceCols: seq<string>, targetCols: seq<string>)
    ensures var d := DisplayOf(e, sourceCols, targetCols);
            ExportRow(e, sourceCols, targetCols) == [("id", Str(IdText(d.id)))] + d.cells + [("remarks", Str(d.remarks))]
  {
    var x := ("id", Str(IdText(e.id)));
    var d := DisplayOf(e, sourceCols, targetCols);
    forall c | c in sourceCols
      ensures "source_" + c != x.0
    {
      KeysApart(c, "");
    }
    forall c | c in targetCols
      ensures "target_" + c != x.0
    {
      KeysApart("", c);
    }
    var src := PutSide([], "source_", e.source, sourceCols);
    assert [x] + [] == [x];
    PutSidePrefix(x, [], "source_", e.source, sourceCols);
    PutSidePrefix(x, src, "target_", e.target, targetCols);
    var withTarget := [x] + d.cells;
    PutSideWrites([], "source_", e.source, sourceCols);
    PutSideWrites(src, "target_", e.target, targetCols);
    forall c | c in targetCols + sourceCols
      ensures "remarks" != "target_" + c && "remarks" != "source_" + c
    {
      KeysApart(c, c);
    }
    assert Field(d.cells, "remarks") == None;
    assert "remarks" !in Keys(withTarget) by {
      assert Keys(withTarget) == [x.0] + Keys(d.cells);
    }
    PutNew(withTarget, "remarks", Str(e.remarks.GetOr("")));
  }

  /** `params.row.mappingId || params.id`: the key the grid passes to unmap and to remarks edits. */
  function Address(d: DisplayRow): EntryId {
    d.mappingId.GetOr(d.id)
  }

  /** Every entry of the list carries its own id as mapping id, as the engine builds them. */
  predicate SelfAddressed(es: seq<Entry>) {
    forall e :: e in es ==> e.mappingId == Some(e.id)
  }

  /** Editing the remarks of grid row `i` writes them to every entry with that row's id (the
      row itself and any duplicate of it) and to no other entry, and unmapping from the row
      always finds an entry. */
  lemma AddressReachesEntry(es: seq<Entry>, i: nat, sourceCols: seq<string>, targetCols: seq<string>, text: string)
    requires SelfAddressed(es)
    requires i < |es|
    ensures var key := Address(Display(es, sourceCols, targetCols)[i]);
            && key == es[i].id
            && FirstWithMapping(es, key).Some?
            && (forall j :: 0 <= j < |es| ==>
                  UpdateRemarks(es, key, text)[j].remarks == if es[j].id == es[i].id then Some(text) else es[j].remarks)
  {
    assert es[i] in es;
    forall j | 0 <= j < |es|
      ensures es[j].mappingId == Some(es[i].id) <==> es[j].id == es[i].id
    {
      assert es[j] in es;
    }
  }
}

=== FILE: rowids.dfy ===
/** The loader's id scheme (src/utils/csvParser.ts) and why it lets entry ids
    be compared structurally: `row-<index>` ids are distinct per side, and with
    them the `mapping-<s>-<t>` text determines both row ids. */
module RowIds {
  import opened Strings
  import opened Types

  /** `row-${index}`. */
  function RowIdOf(index: nat): string {
    "row-" + NatText(index)
  }

  /** The shape of a loader id: `row-` followed by one or more decimal digits. */
  predicate RowIdShape(s: string) {
    |s| > 4 && s[..4] == "row-" && forall i :: 4 <= i < |s| ==> IsDigit(s[i])
  }

  /** The loader's pass over the parsed records: each keeps its cells and gets the id of its position. */
  function AssignIds(parsed: seq<map<string, Value>>): (rows: seq<Row>)
    ensures |rows| == |parsed|
    ensures forall i :: 0 <= i < |rows| ==> rows[i].cells == parsed[i] && RowIdShape(rows[i].id)
    ensures DistinctIds(rows)
  {
    var rows := seq(|parsed|, i requires 0 <= i < |parsed| => Row(RowIdOf(i), parsed[i]));
    forall i | 0 <= i < |rows|
      ensures RowIdShape(rows[i].id)
    {
      RowIdOfShape(i);
    }
    forall i, j | 0 <= i < j < |rows|
      ensures rows[i].id != rows[j].id
    {
      if rows[i].id == rows[j].id {
        RowIdOfInjective(i, j);
      }
    }
    rows
  }

  lemma RowIdOfShape(index: nat)
    ensures RowIdShape(RowIdOf(index))
  {
    var s := RowIdOf(index);
    assert s[..4] == "row-";
    forall i | 4 <= i < |s|
      ensures IsDigit(s[i])
    {
      assert s[i] == NatText(index)[i - 4];
    }
  }

  lemma RowIdOfInjective(a: nat, b: nat)
    requires RowIdOf(a) == RowIdOf(b)
    ensures a == b
  {
    assert RowIdOf(a)[4..] == NatText(a);
    assert RowIdOf(b)[4..] == NatText(b);
    NatTextInjective(a, b);
  }

  /** Every row id inside an entry id has the loader's shape. */
  predicate EntryIdShaped(id: EntryId) {
    match id
    case SourceOnlyId(s) => RowIdShape(s)
    case TargetOnlyId(t) => RowIdShape(t)
    case PairId(s, t) => RowIdShape(s) && RowIdShape(t)
  }

  /** With loader ids, `<s>-<t>` splits in exactly one way: the dash after `s` is
      the first one that follows a digit. */
  lemma {:induction false} SplitPairText(s1: string, t1: string, s2: string, t2: string)
    requires RowIdShape(s1) && RowIdShape(s2)
    requires s1 + "-" + t1 == s2 + "-" + t2
    ensures s1 == s2 && t1 == t2
  {
    var w := s1 + "-" + t1;
    assert w == s2 + "-" + t2;
    assert w[|s1|] == '-' && w[|s2|] == '-';
    assert forall k :: 4 <= k < |s1| ==> w[k] == s1[k] && w[k] != '-';
    assert forall k :: 4 <= k < |s2| ==> w[k] == s2[k] && w[k] != '-';
    assert |s1| == |s2|;
    assert s1 == w[..|s1|] == s2;
    assert t1 == w[|s1| + 1..] == t2;
  }

  /** The text of an entry id determines the entry id, so comparing the
      application's id strings is the same as comparing the structured ids. */
  lemma IdTextInjective(a: EntryId, b: EntryId)
    requires EntryIdShaped(a) && EntryIdShaped(b)
    requires IdText(a) == IdText(b)
    ensures a == b
  {
    var ta, tb := IdText(a), IdText(b);
    match a
    case SourceOnlyId(s) =>
      assert ta[0] == 's';
      assert b.SourceOnlyId?;
      assert s == ta[7..] == tb[7..] == b.src;
    case TargetOnlyId(t) =>
      assert ta[0] == 't';
      assert b.TargetOnlyId?;
      assert t == ta[7..] == tb[7..] == b.tgt;
    case PairId(s, t) =>
      assert ta[0] == 'm';
      assert b.PairId?;
      assert ta[8..] == s + "-" + t;
      assert tb[8..] == b.src + "-" + b.tgt;
      SplitPairText(s, t, b.src, b.tgt);
  }
}

=== FILE: selector.dfy ===
/** The candidate search of src/components/MappingModal.tsx (`filteredData`): keep the
    rows of which some field value, as text and lower-cased, contains the lower-cased
    search term; an empty term keeps every row. */
module Selector {
  import opened Types
  import opened EntryLists

  /** `toLowerCase` on one character; only the ASCII letters are modelled. */
  function LowerChar(c: char): char {
    if 'A' <= c <= 'Z' then (c as int + 32) as char else c
  }

  function Lower(s: string): (r: string)
    ensures |r| == |s|
    ensures forall i :: 0 <= i < |s| ==> r[i] == LowerChar(s[i])
  {
    seq(|s|, i requires 0 <= i < |s| => LowerChar(s[i]))
  }

  /** Lower-casing twice is lower-casing once. */
  lemma LowerIdempotent(s: string)
    ensures Lower(Lower(s)) == Lower(s)
  {
    assert forall i :: 0 <= i < |s| ==> LowerChar(LowerChar(s[i])) == LowerChar(s[i]);
  }

  /** `needle` is the piece of `hay` starting at position `i`. */
  predicate OccursAt(needle: string, hay: string, i: int) {
    0 <= i && i + |needle| <= |hay| && hay[i..i + |needle|] == needle
  }

  /** `needle` is a contiguous piece of `hay`. */
  ghost predicate Occurs(needle: string, hay: string) {
    exists i :: OccursAt(needle, hay, i)
  }

  /** `hay.includes(needle)`, as a scan from the left. */
  function Includes(hay: string, needle: string): bool
    decreases |hay|
  {
    if |needle| > |hay| then false
    else if hay[..|needle|] == needle then true
    else Includes(hay[1..], needle)
  }

  /** An occurrence in the tail is an occurrence one place further on. */
  lemma OccursInTail(needle: string, hay: string, i: int)
    requires |hay| > 0 && OccursAt(needle, hay[1..], i)
    ensures OccursAt(needle, hay, i + 1)
  {
    assert hay[i + 1..i + 1 + |needle|] == hay[1..][i..i + |needle|];
  }

  /** An occurrence past the first position is an occurrence in the tail. */
  lemma OccursPastHead(needle: string, hay: string, i: int)
    requires OccursAt(needle, hay, i) && i > 0
    ensures OccursAt(needle, hay[1..], i - 1)
  {
    assert hay[1..][i - 1..i - 1 + |needle|] == hay[i..i + |needle|];
  }

  /** The scan finds exactly the occurrences; in particular the empty text occurs everywhere. */
  lemma {:induction false} IncludesSpec(hay: string, needle: string)
    ensures Includes(hay, needle) <==> Occurs(needle, hay)
    decreases |hay|
  {
    var n := |needle|;
    if n <= |hay| && hay[..n] != needle {
      IncludesSpec(hay[1..], needle);
      assert Includes(hay, needle) == Includes(hay[1..], needle);
      if Occurs(needle, hay) {
        var i :| OccursAt(needle, hay, i);
        OccursPastHead(needle, hay, i);
      }
      if Occurs(needle, hay[1..]) {
        var i :| OccursAt(needle, hay[1..], i);
        OccursInTail(needle, hay, i);
      }
    } else if n <= |hay| {
      assert OccursAt(needle, hay, 0);
    }
  }

  /** The row matches the term: one of its values, as text and lower-cased, includes the lower-cased term. */
  predicate Matches(r: Row, term: string) {
    exists v :: v in FieldValues(r) && Includes(Lower(Text(v)), Lower(term))
  }

  /** Matches against the row's fields directly: some column's value contains the term, ignoring case. */
  lemma MatchesSpec(r: Row, term: string)
    ensures Matches(r, term) <==> exists col, v :: Lookup(r, col) == Some(v) && Occurs(Lower(term), Lower(Text(v)))
  {
    forall v | v in FieldValues(r)
      ensures Includes(Lower(Text(v)), Lower(term)) <==> Occurs(Lower(term), Lower(Text(v)))
    {
      IncludesSpec(Lower(Text(v)), Lower(term));
    }
    if exists col, v :: Lookup(r, col) == Some(v) && Occurs(Lower(term), Lower(Text(v))) {
      var col, v :| Lookup(r, col) == Some(v) && Occurs(Lower(term), Lower(Text(v)));
      assert v in FieldValues(r);
    }
  }

  /** `displayData.filter(...)`. */
  function Keep(rows: seq<Row>, term: string): seq<Row> {
    if |rows| == 0 then []
    else (if Matches(rows[0], term) then [rows[0]] else []) + Keep(rows[1..], term)
  }

  /** `filteredData`: every row for an empty term, otherwise the matching rows. */
  function Search(rows: seq<Row>, term: string): seq<Row> {
    if term == "" then rows else Keep(rows, term)
  }

  /** Keeping by a prefix and one more row. */
  lemma {:induction false} KeepSnoc(rows: seq<Row>, r: Row, term: string)
    ensures Keep(rows + [r], term) == Keep(rows, term) + (if Matches(r, term) then [r] else [])
  {
    var m := if Matches(r, term) then [r] else [];
    if |rows| == 0 {
      assert [r][1..] == [];
    } else {
      var h := if Matches(rows[0], term) then [rows[0]] else [];
      assert Keep(rows + [r], term) == h + Keep(rows[1..] + [r], term) by {
        assert (rows + [r])[0] == rows[0];
        assert (rows + [r])[1..] == rows[1..] + [r];
      }
      KeepSnoc(rows[1..], r, term);
      ConcatAssoc(h, Keep(rows[1..], term), m);
    }
  }

  /** The filter as a loop over the candidate rows. */
  method FilterCandidates(rows: seq<Row>, term: string) returns (shown: seq<Row>)
    ensures shown == Search(rows, term)
  {
    if term == "" {
      return rows;
    }
    shown := [];
    var i := 0;
    while i < |rows|
      invariant 0 <= i <= |rows|
      invariant shown == Keep(rows[..i], term)
    {
      KeepSnoc(rows[..i], rows[i], term);
      assert rows[..i + 1] == rows[..i] + [rows[i]];
      if Matches(rows[i], term) {
        shown := shown + [rows[i]];
      }
      i := i + 1;
    }
    assert rows[..|rows|] == rows;
  }

  /** Every row matches the empty term, so the shortcut for it agrees with the filter. */
  lemma {:induction false} EmptyTermKeepsAll(rows: seq<Row>)
    ensures Keep(rows, "") == rows
    ensures forall r: Row :: Matches(r, "")
  {
    forall r: Row
      ensures Matches(r, "")
    {
      assert Lookup(r, "id") == Some(Str(r.id));
      assert Str(r.id) in FieldValues(r);
      assert Lower(r.id)[..0] == Lower("");
      assert Includes(Lower(Text(Str(r.id))), Lower(""));
    }
    if |rows| > 0 {
      EmptyTermKeepsAll(rows[1..]);
    }
  }

  /** The filter keeps exactly the matching candidates, in their original order. */
  lemma {:induction false} KeepSpec(rows: seq<Row>, term: string)
    ensures forall r :: r in Keep(rows, term) <==> r in rows && Matches(r, term)
    ensures IsSubsequence(Keep(rows, term), rows)
  {
    if |rows| > 0 {
      KeepSpec(rows[1..], term);
      assert forall r :: r in rows <==> r == rows[0] || r in rows[1..];
      var k := Keep(rows, term);
      if Matches(rows[0], term) {
        assert k[0] == rows[0] && k[1..] == Keep(rows[1..], term);
      } else {
        assert k == Keep(rows[1..], term);
      }
    }
  }

  /** The search result: the candidates that match, the term empty or not, as a subsequence of
      the candidates, hence never longer; with an empty term, the candidates themselves. */
  lemma SearchSpec(rows: seq<Row>, term: string)
    ensures forall r :: r in Search(rows, term) <==> r in rows && Matches(r, term)
    ensures IsSubsequence(Search(rows, term), rows)
    ensures |Search(rows, term)| <= |rows|
    ensures term == "" ==> Search(rows, term) == rows
  {
    KeepSpec(rows, term);
    EmptyTermKeepsAll(rows);
    SubsequenceIsShorter(Search(rows, term), rows);
  }

  /** The search ignores the case of the term. */
  lemma {:induction false} SearchIgnoresCase(rows: seq<Row>, term: string)
    ensures Search(rows, term) == Search(rows, Lower(term))
  {
    LowerIdempotent(term);
    assert forall r :: Matches(r, term) == Matches(r, Lower(term));
    KeepSameMatches(rows, term, Lower(term));
  }

  lemma {:induction false} KeepSameMatches(rows: seq<Row>, a: string, b: string)
    requires forall r :: Matches(r, a) == Matches(r, b)
    ensures Keep(rows, a) == Keep(rows, b)
  {
    if |rows| > 0 {
      KeepSameMatches(rows[1..], a, b);
    }
  }

  /** Searching for a row's own id always shows that row. */
  lemma SearchFindsOwnId(rows: seq<Row>, r: Row)
    requires r in rows
    ensures r in Search(rows, r.id)
  {
    assert Lookup(r, "id") == Some(Str(r.id));
    assert Str(r.id) in FieldValues(r);
    assert Lower(r.id)[..|Lower(r.id)|] == Lower(r.id);
    assert Includes(Lower(Text(Str(r.id))), Lower(r.id));
    SearchSpec(rows, r.id);
  }
}

=== FILE: strings.dfy ===
/** Decimal rendering of numbers, as JavaScript's `String(n)` and the loader's
    `row-${index}` template produce it for integers. */
module Strings {

  predicate IsDigit(c: char) {
    '0' <= c <= '9'
  }

  function DigitChar(d: nat): (c: char)
    requires d < 10
    ensures IsDigit(c)
    ensures c as int - '0' as int == d
  {
    ('0' as int + d) as char
  }

  /** Decimal text of a natural number, most significant digit first, no leading zeros. */
  function NatText(n: nat): (s: string)
    ensures |s| > 0
    ensures forall i :: 0 <= i < |s| ==> IsDigit(s[i])
    ensures |s| == 1 <==> n < 10
  {
    if n < 10 then [DigitChar(n)] else NatText(n / 10) + [DigitChar(n % 10)]
  }

  /** Different numbers never share a decimal text. */
  lemma {:induction false} NatTextInjective(a: nat, b: nat)
    requires NatText(a) == NatText(b)
    ensures a == b
  {
    if a >= 10 && b >= 10 {
      var sa, sb := NatText(a), NatText(b);
      assert sa[|sa| - 1] == sb[|sb| - 1];
      assert a % 10 == b % 10;
      assert sa[..|sa| - 1] == NatText(a / 10);
      assert sb[..|sb| - 1] == NatText(b / 10);
      NatTextInjective(a / 10, b / 10);
    }
  }

  /** `String(n)` for an integer: a minus sign before the magnitude when negative. */
  function IntText(n: int): (s: string)
    ensures |s| > 0
    ensures n < 0 <==> s[0] == '-'
  {
    if n < 0 then "-" + NatText(-n) else NatText(n)
  }
}

=== FILE: types.dfy ===
/** The shared data model: cell values, loaded rows, the record store and
    the mapping entries the reconciliation engine keeps (src/types.ts). */
module Types {
  import Strings

  datatype Option<+T> = None | Some(value: T) {
    /** The value, or `default` when absent (JavaScript's `x || default` on a non-empty value). */
    function GetOr(default: T): T {
      match this
      case Some(v) => v
      case None => default
    }
  }

  /** A cell value: text, or a number (integers only in this model). */
  datatype Value = Str(s: string) | Num(n: int)

  /** `String(value)`. */
  function Text(v: Value): string {
    match v
    case Str(s) => s
    case Num(n) => Strings.IntText(n)
  }

  /** JavaScript falsiness of a cell value: the empty text and zero. */
  predicate Falsy(v: Value) {
    v == Str("") || v == Num(0)
  }

  /** A loaded record: its synthetic per-side id and the cells read from the file. */
  datatype Row = Row(id: string, cells: map<string, Value>)

  /** `row[col]`: the loader writes `id` over any cell of that name. */
  function Lookup(r: Row, col: string): Option<Value> {
    if col == "id" then Some(Str(r.id))
    else if col in r.cells then Some(r.cells[col])
    else None
  }

  /** `Object.values(row)`, as a set: the synthetic id and every other cell. */
  function FieldValues(r: Row): (vs: set<Value>)
    ensures forall v :: v in vs <==> exists col :: Lookup(r, col) == Some(v)
  {
    var cellValues := set col | col in r.cells && col != "id" :: r.cells[col];
    assert forall v :: v in cellValues <==> exists col :: col != "id" && Lookup(r, col) == Some(v) by {
      forall v | exists col :: col != "id" && Lookup(r, col) == Some(v)
        ensures v in cellValues
      {
        var col :| col != "id" && Lookup(r, col) == Some(v);
        assert col in r.cells && r.cells[col] == v;
      }
      forall v | v in cellValues
        ensures exists col :: col != "id" && Lookup(r, col) == Some(v)
      {
        var col :| col in r.cells && col != "id" && r.cells[col] == v;
        assert Lookup(r, col) == Some(v);
      }
    }
    assert Lookup(r, "id") == Some(Str(r.id));
    {Str(r.id)} + cellValues
  }

  /** Row ids are unique within one side (the loader numbers rows `row-0`, `row-1`, ...). */
  predicate DistinctIds(rows: seq<Row>) {
    forall i, j :: 0 <= i < j < |rows| ==> rows[i].id != rows[j].id
  }

  /** `rows.find(row => row.id === rid)`: the first row with that id. */
  function Find(rows: seq<Row>, rid: string): (r: Option<Row>)
    ensures r.Some? ==> r.value in rows && r.value.id == rid
    ensures r.None? <==> forall x :: x in rows ==> x.id != rid
  {
    if |rows| == 0 then None
    else if rows[0].id == rid then Some(rows[0])
    else Find(rows[1..], rid)
  }

  /** `find` returns the first row with the id: every row before it has another id. */
  lemma {:induction false} FindFirst(rows: seq<Row>, rid: string)
    requires Find(rows, rid).Some?
    ensures exists i :: 0 <= i < |rows| && rows[i] == Find(rows, rid).value && forall j :: 0 <= j < i ==> rows[j].id != rid
  {
    if rows[0].id != rid {
      FindFirst(rows[1..], rid);
      var i :| 0 <= i < |rows[1..]| && rows[1..][i] == Find(rows, rid).value && forall j :: 0 <= j < i ==> rows[1..][j].id != rid;
      assert rows[i + 1] == Find(rows, rid).value;
      assert forall j :: 0 <= j < i + 1 ==> rows[j].id != rid by {
        forall j | 0 <= j < i + 1
          ensures rows[j].id != rid
        {
          if j > 0 {
            assert rows[j] == rows[1..][j - 1];
          }
        }
      }
    } else {
      assert rows[0] == Find(rows, rid).value;
    }
  }

  /** With distinct ids, `find` by a row's id returns that very row. */
  lemma FindUnique(rows: seq<Row>, r: Row)
    requires DistinctIds(rows)
    requires r in rows
    ensures Find(rows, r.id) == Some(r)
  {
    var f := Find(rows, r.id);
    var i :| 0 <= i < |rows| && rows[i] == f.value;
    var j :| 0 <= j < |rows| && rows[j] == r;
    assert i == j;
  }

  datatype Side = Source | Target {
    function Other(): Side {
      if this == Source then Target else Source
    }
  }

  /** The record store: the rows of both loaded files. */
  datatype Store = Store(sources: seq<Row>, targets: seq<Row>) {
    function RowsOf(side: Side): seq<Row> {
      if side == Source then sources else targets
    }
  }

  /** An entry id, `source-<s>`, `target-<t>` or `mapping-<s>-<t>`, kept structured. */
  datatype EntryId =
    | SourceOnlyId(src: string)
    | TargetOnlyId(tgt: string)
    | PairId(src: string, tgt: string)
  {
    predicate IsSolitary() {
      !PairId?
    }
  }

  /** The text the application writes for an entry id. */
  function IdText(id: EntryId): string {
    match id
    case SourceOnlyId(s) => "source-" + s
    case TargetOnlyId(t) => "target-" + t
    case PairId(s, t) => "mapping-" + s + "-" + t
  }

  /** The solitary entry id of a row on one side. */
  function SolitaryId(side: Side, rid: string): EntryId {
    if side == Source then SourceOnlyId(rid) else TargetOnlyId(rid)
  }

  /** One row of the mapped table (`MappedRow`). */
  datatype Entry = Entry(
    id: EntryId,
    source: Option<Row>,
    target: Option<Row>,
    remarks: Option<string>,
    mappingId: Option<EntryId>)
  {
    function RowOn(side: Side): Option<Row> {
      if side == Source then source else target
    }
  }

  /** A fresh solitary entry for `r`: no counterpart, no remarks, `mappingId` equal to the id. */
  function Solitary(side: Side, r: Row): Entry {
    var id := SolitaryId(side, r.id);
    if side == Source then Entry(id, Some(r), None, None, Some(id))
    else Entry(id, None, Some(r), None, Some(id))
  }

  /** A fresh paired entry `mapping-<s>-<t>`, whichever side was the anchor. */
  function Paired(s: Row, t: Row): Entry {
    var id := PairId(s.id, t.id);
    Entry(id, Some(s), Some(t), None, Some(id))
  }
}
